=== FILE: README.md ===
# ootws core in Dafny

ootws puts a resource behind a **trust tree** and two
**usage ledgers**:

- **The local client's limit evaluator** (`authorize_request`) checks each resource request.
  - The request must be fresh.
  - Within the five-minute freshness window it must not repeat a request id.
  - It must respect every bandwidth and rate limit its signer declared.
  - Only then does the evaluator record one event in the signer's ledger and sign an authorization.
- **The resource server** (`get_protected_resource`) accepts such an authorization from a member of the trust tree.
  - It checks freshness, the member's good standing, the issuer of the wrapped request, and replay against the member's usage account.
  - It records the access in decaying per-second … per-year buckets.
  - A member is banned, together with its whole subtree, once its per-second byte bucket exceeds 2048 bytes. That bucket restarts only after a full second with no access, so requests spaced less than a second apart keep adding to it.
- **The trust tree** is a Deno KV store from DID to node.
  - Members admit new members under themselves (`add_user`), through a versionstamp-guarded atomic commit.
  - `distrust_user` revokes a member and, recursively, its subtree.
  - `user_in_good_standing` is the trust gate.
  - `make_root_user` writes the root.

The model is purely functional:

- The stores are immutable maps.
- The clock, fresh UUIDs and verified envelopes are parameters.
- Each operation returns the new store together with its outcome.

| module | file | models |
|---|---|---|
| `Wrappers`, `Constants` | wrappers.dfy, constants.dfy | `Option`, DIDs, the millisecond constants |
| `Timestamps` | timestamps.dfy | `is_valid_timestamp`, `MAX_TIMESTAMP_DIFF_MS` |
| `Limits` | limits.dfy | the two limit variants, their tags and numeric constraints |
| `Messages` | messages.dfy | resource, authorize and add-user payloads inside verified envelopes |
| `UsageEvents` | usage_events.dfy | the client ledger, `prune_old`, `found_duplicate`, `count_in_window` |
| `Authorizer` | authorizer.dfy | `authorize_request` |
| `TrustTree` | trust_tree.dfy | tree nodes, the versionstamped store, `user_in_good_standing`, `make_root_user`, consistency of parent and child links |
| `Admission` | admission.dfy | `add_user`, its atomic commit, and a commit interleaved with another writer |
| `Revocation` | revocation.dfy | `distrust_user` and reachability through children links |
| `UsageAccount` | usage_account.dfy | `UsageOverTime`, `UserUsageInfo`, `update_info` |
| `ResourceServer` | resource_server.dfy | `get_protected_resource` |

**The store.** The store is `Kv(entries, nextVersionstamp)`.

- Every write stamps its entry with a fresh versionstamp.
- The atomic commit of an admission succeeds only if the signer's entry still carries the versionstamp the trust gate read.
- `AddUserInterleaved` separates the store the checks read (`kv`) from the store the commit meets (`atCommit`). This makes interleavings expressible.
- `AddUser` is the sequential case, where the two stores are the same.

**Link consistency.** `LinksConsistent` holds when the store's parent and child links agree:

- every listed child is stored and names the listing node as parent;
- every named parent is stored and lists the child.

Admission, revocation and serving each keep this invariant and keep the set of roots. It does not exclude a cycle of nodes that list one another, so it is link consistency rather than full tree shape.

**Revocation.** The source's recursion has no bound, so the model gives it fuel.

- `Distrust` passes the number of stored nodes as fuel.
- `ReachableWithinStore` shows that this fuel reaches every node reachable at all, by a shortest-path argument.
- So `Distrust` revokes exactly the nodes reachable from the target.

**Behaviour of the code worth noting:**

- `distrust_user` passes no proof to the recursive calls on the children. Only the target records a ban proof.
- `add_user` answers the same "not eligible" error whether the signer is absent or untrusted. The model has one `NotEligible` for both.
- `make_root_user` writes no `parent` field. The root's parent is `None`.

## Model

| member | source | states |
|---|---|---|
| Timestamps.IsValidTimestamp | common/is_valid_timestamp.ts:10-13 | valid iff the timestamp lies in the closed interval [now − 5 min, now + 5 min] |
| Timestamps.ValidTimestampInterval | common/is_valid_timestamp.ts:3-13 | the window is ±300000 ms, bounds included |
| Timestamps.ValidTimestampSymmetric | common/is_valid_timestamp.ts:11 | being k ms early and being k ms late are judged alike |
| Timestamps.ValidTimestampBoundary | common/is_valid_timestamp.ts:12 | `now` and exactly five minutes off are valid; one ms further is not |
| Timestamps.TenMinutesIsStale | node_server/tests/node_server_test.ts:142-152 | ten minutes in the past or future is invalid |
| Timestamps.FreshForBoth | common/is_valid_timestamp.ts:10-13 | two clocks that both accept one timestamp are at most ten minutes apart |
| Limits.ParseLimit | common/Limits.ts:9-26 | a limit parses iff its tag is "bandwitdth" or "rate_limit", its budget is ≥ 0 and its window is > 0; the result is valid and carries the given fields |
| Limits.ParseLimitRoundTrip | common/Limits.ts:9-26 | every valid limit survives a round trip through its wire fields |
| Limits.KindDiscriminates | common/Limits.ts:26 | the `kind` tag alone tells the two variants apart |
| UsageEvents.PruneOld | local_client/src/authorize_request.ts:31-34 | keeps exactly the events at most one year old, with their multiplicities |
| UsageEvents.PruneOldAppend | local_client/src/authorize_request.ts:31-34 | pruning distributes over concatenation, so the survivors keep their order |
| UsageEvents.PruneOldKeepsRecent | local_client/src/authorize_request.ts:32 | a ledger within the last year is left as it is |
| UsageEvents.PruneOldIdempotent | local_client/src/authorize_request.ts:31-34 | pruning twice at one instant equals pruning once |
| UsageEvents.FoundDuplicate | local_client/src/authorize_request.ts:36-53 | true iff an event with the id is reached by the newest-first scan, which checks the id before the cutoff and stops after the first old event |
| UsageEvents.FoundDuplicateSuffix | local_client/src/authorize_request.ts:36-53 | the scan finds the id iff it occurs from the newest event older than the cutoff onwards, or anywhere if no event is that old |
| UsageEvents.CountInWindow | local_client/src/authorize_request.ts:55-77 | None iff the replay scan over the same window finds the id; otherwise the length and byte sum of the maximal newest-side run inside the window |
| UsageEvents.CountInWindowBounded | local_client/src/authorize_request.ts:55-77 | the counted requests never exceed the ledger length |
| UsageEvents.CountInWindowStale | local_client/src/authorize_request.ts:69-71 | a ledger whose newest event predates the window counts zero |
| Authorizer.CheckLimit | local_client/src/authorize_request.ts:124-169 | a limit admits iff there is no duplicate in its window and bandwidth: window bytes + size ≤ budget, rate: window requests < max; a duplicate wins over both |
| Authorizer.CheckLimits | local_client/src/authorize_request.ts:123-170 | None iff every limit admits; otherwise the verdict of the first limit that rejects, in list order |
| Authorizer.Authorize | local_client/src/authorize_request.ts:79-192 | authorized iff fresh, no replay within five minutes, and (ignoring limits or every limit admits); every rejection leaves the store; success stores the pruned ledger plus exactly one event and signs an authorization carrying `now` |
| Authorizer.ResubmissionRejected | local_client/src/authorize_request.ts:104-117 | resubmitting an authorized request while fresh is a duplicate, whatever `ignore_limits` says |
| Authorizer.IgnoreLimitsOnlySkipsLimits | local_client/src/authorize_request.ts:118-171 | `ignore_limits` changes the outcome only when a limit rejects, and then the strict error is that limit's verdict |
| Authorizer.WindowElapsedAccepts | local_client/src/authorize_request.ts:123-170 | once every window has elapsed, a fresh request each limit admits alone is accepted again |
| Authorizer.FirstRequestAccepted | local_client/src/authorize_request.ts:173-178 | on an empty ledger an admissible request is accepted and the ledger holds just its event |
| Authorizer.NoLimitPasses | local_client/tests/client_test.ts:10-23 | a request without limits on an empty ledger is accepted |
| Authorizer.RateLimitScenario | local_client/tests/client_test.ts:45-122 | one request per second: second request rejected with one request counted; after a 50 ms window, accepted again |
| Authorizer.BandwidthScenario | local_client/tests/client_test.ts:124-202 | 1500 bytes per second: second 1024-byte request rejected at 2048 projected bytes; after a 50 ms window, accepted again |
| TrustTree.Set | node_server/src/make_root_user.ts:11 | a write changes exactly one key and issues a newer versionstamp |
| TrustTree.SetChangesVersionstamp | node_server/src/add_user.ts:64 | a write changes the key's versionstamp, which is what the commit's check detects |
| TrustTree.UserInGoodStanding | node_server/src/user_in_good_standing.ts:4-20 | None iff the DID is absent or untrusted; otherwise the stored entry, versionstamp included |
| TrustTree.MakeRootUser | node_server/src/make_root_user.ts:6-16 | the root key's whole entry is replaced by a trusted, childless, parentless node with no ban proof, stamped with the given time, under a fresh versionstamp, so an earlier ban proof is erased; no other key changes |
| TrustTree.MakeRootUserOnEmpty | node_server/src/make_root_user.ts:11-15 | bootstrapping an empty store gives consistent links and exactly that one root |
| Admission.CommitAdmission | node_server/src/add_user.ts:56-69 | the commit fails iff the signer's versionstamp changed; otherwise exactly the new key and the signer's children change |
| Admission.AddUserInterleaved | node_server/src/add_user.ts:14-79 | with another writer between read and commit: the checks refuse in source order (stale timestamp, then signer absent or untrusted, then target present); Added iff all checks pass and the signer's versionstamp has not moved; ConcurrentModification iff all checks pass but it moved; success attaches the new node under the signer as read |
| Admission.AddUser | node_server/src/add_user.ts:14-79 | refused with the first failing check (timestamp, standing, existence) and nothing written; added iff all pass, writing the new node and the signer's extended children and nothing else |
| Admission.AttachedKeepsLinks | node_server/src/add_user.ts:56-69 | attaching a fresh leaf under its stored parent keeps the links consistent and the roots |
| Admission.AttachKeepsLinkMaps | node_server/src/add_user.ts:58-68 | the same, on the children and parent maps |
| Admission.AddUserKeepsLinks | node_server/src/add_user.ts:56-69 | sequential admission keeps the links consistent and keeps the roots |
| Admission.AddUserKeepsVersionstamps | node_server/src/add_user.ts:56-69 | admission issues only versionstamps older than the next one |
| Admission.ConcurrentWriteAborts | node_server/src/add_user.ts:64-75 | a write to the signer's entry between read and commit aborts with ConcurrentModification and writes nothing |
| Admission.AdmittedUserInGoodStanding | node_server/src/add_user.ts:58-63 | an admitted member passes the trust gate |
| Admission.ReplayedAddUserFails | node_server/src/add_user.ts:45-54 | replaying an accepted admission while fresh fails with UserAlreadyExists |
| Admission.ConcurrentSameUserBreaksLinks | node_server/src/add_user.ts:56-69 | two members admitting one DID concurrently: both commits succeed and the links no longer agree |
| Admission.AddUserChecked | node_server/src/add_user.ts:56-75 | the commit also guarded by the new key's absence: added only if that key is still absent, otherwise as the source |
| Admission.CheckedAgreesWhenSequential | node_server/src/add_user.ts:45-75 | run alone, the guarded commit and the source's commit give the same reply |
| Admission.CheckedAdmissionKeepsLinks | node_server/src/add_user.ts:56-75 | with that guard, admission keeps the links consistent against any state reached since the read |
| Revocation.DistrustUser | node_server/src/distrust_user.ts:8-28 | within the fuel, revokes exactly the nodes the target reaches; only the target takes a non-empty proof |
| Revocation.DistrustChildren | node_server/src/distrust_user.ts:23-27 | revokes exactly what the children reach, without proof |
| Revocation.ReachableWithinStore | node_server/src/distrust_user.ts:23-27 | anything reachable at all is reached within as many levels as the store has nodes |
| Revocation.Distrust | node_server/src/distrust_user.ts:8-28 | revokes exactly the nodes reachable from the target; others untouched; links and times kept; an absent target changes nothing |
| Revocation.DistrustedNode | node_server/src/distrust_user.ts:13-21 | each stored node afterwards: untrusted iff it was untrusted or is reachable; proof only on the target, only if non-empty |
| Revocation.DistrustIdempotent | node_server/src/distrust_user.ts:17-21 | revoking twice with one proof leaves the same nodes as once |
| Revocation.RevokedTwice | node_server/src/distrust_user.ts:17-21 | revoking one set twice changes no node the second time |
| Revocation.DistrustedUserNotInGoodStanding | node_server/src/distrust_user.ts:17 | the target leaves good standing |
| Revocation.DistrustRecordsProof | node_server/src/distrust_user.ts:18-20 | a non-empty proof is recorded on the target |
| Revocation.DistrustedChildNotInGoodStanding | node_server/src/distrust_user.ts:23-27 | a child of the target leaves good standing |
| Revocation.DistrustKeepsLinks | node_server/src/distrust_user.ts:17-21 | revocation keeps the links consistent and the roots |
| UsageAccount.ElapsedSince | node_server/src/get_protected_resource.ts:41-49 | each count of the floor chain is the direct floor of the elapsed ms by the bucket's width, so it is ≥ 1 iff that width has elapsed |
| UsageAccount.DecayedBucket | node_server/src/get_protected_resource.ts:65-110 | a bucket is zeroed iff its count is ≥ 1, then gains the amount |
| UsageAccount.UpdateInfo | node_server/src/get_protected_resource.ts:34-113 | None iff the id is in the history; otherwise stamp = now, histories grow by one at the end, each bucket restarts iff its width elapsed and gains the bytes (or one request), all-time never resets |
| UsageAccount.ResetsAreNested | node_server/src/get_protected_resource.ts:41-92 | a coarser reset implies every finer one |
| UsageAccount.ShortElapsedResetsNothing | node_server/src/get_protected_resource.ts:41-92 | under one second elapsed, or a clock going back, resets nothing |
| UsageAccount.FreshAccountOrdered | node_server/src/get_protected_resource.ts:159-186 | the fresh all-zero account is ordered |
| UsageAccount.DecayAccumulateOrdered | node_server/src/get_protected_resource.ts:65-110 | nested reset plus an equal non-negative addition keeps second ≤ … ≤ year ≤ all-time |
| UsageAccount.UpdateInfoKeepsOrder | node_server/src/get_protected_resource.ts:57-112 | every accepted update keeps the bucket ordering for bytes and requests |
| UsageAccount.UpdateAllRunningTotals | node_server/src/get_protected_resource.ts:57-110 | over any run of accepted accesses, all-time totals are the running totals, the id history gains exactly the accepted ids in order, and the bucket order is kept |
| UsageAccount.FreshAccountRunningTotals | node_server/src/get_protected_resource.ts:57-110 | from a fresh account, all-time equals the accepted bytes and requests, and the id history is exactly the accepted ids |
| ResourceServer.Join | node_server/src/get_protected_resource.ts:217 | the joined proof is empty for no ids and is the id itself for one; otherwise it begins with the first id and ends with the last |
| ResourceServer.JoinConcat | node_server/src/get_protected_resource.ts:217 | joining two non-empty lists is joining each with exactly one separator between them, so neighbouring ids are separated by one newline and nothing else is added |
| ResourceServer.StoredInfo | node_server/src/get_protected_resource.ts:159-186 | the stored account, or one stamped `now` with all sixteen counters zero and empty histories |
| ResourceServer.Settle | node_server/src/get_protected_resource.ts:204-223 | the account is persisted; served iff the second bucket is ≤ 2048, else the member is revoked with its newline-joined id history |
| ResourceServer.Serve | node_server/src/get_protected_resource.ts:115-223 | refused in check order (timestamp, standing, issuer, replay) with nothing written; served or banned only past all gates |
| ResourceServer.ServeRecordsAccess | node_server/src/get_protected_resource.ts:188-207 | past the gate, the member's stored account becomes exactly the `UpdateInfo` result for this request on the account read (stamp `now`, both histories extended, every bucket decayed then increased), and no other account changes |
| ResourceServer.ServeEnforcesBudget | node_server/src/get_protected_resource.ts:209-223 | past the gate, served iff the second bucket stays ≤ 2048, trust untouched; otherwise banned with the id history as proof |
| ResourceServer.BanRevokesSubtree | node_server/src/get_protected_resource.ts:212-218 | a banned member, its direct children and every member reachable from it through children links leave good standing |
| ResourceServer.BannedMemberRefused | node_server/src/get_protected_resource.ts:135-141 | after a ban, every later fresh request of the member is NotEligible and changes nothing |
| ResourceServer.ReplayRefusedWithoutBan | node_server/src/get_protected_resource.ts:195-203 | presenting a served authorization again is a replay that neither bans nor records |
| ResourceServer.ServeKeepsLinks | node_server/src/get_protected_resource.ts:204-223 | serving or banning keeps the trust store's links consistent and its roots |
| ResourceServer.ServedWithinBudget | node_server/src/get_protected_resource.ts:212-223 | every served access leaves the second bucket within 2048 bytes |
| ResourceServer.ThirdRequestInOneSecondBans | node_server/tests/node_server_test.ts:255-307 | three 1024-byte requests within a second: two served, the third bans the member with the three ids as proof |
| ResourceServer.SpacedRequestsBan | node_server/src/get_protected_resource.ts:41-43 | the per-second bucket restarts only a full second after the last access: three 1024-byte requests 900 ms apart ban the member |

## Left out

- **Envelope signing and verification.** JWS/DID signing and verification are external cryptography. A verified envelope is modelled as `Signed(payload, signer)`. The thrown verification failures are not modelled.
- **Schema parsing.** Zod parsing beyond the numeric limit constraints is left out, including the UUID format of ids. Requests are taken as already validated.
- **Storage, clock and randomness.** localStorage and Deno KV I/O become immutable maps. `Date.now()` and `crypto.randomUUID()` become parameters.
- **JavaScript numbers.** Numbers are unbounded integers. Floating-point rounding and precision limits are not modelled.
- **Concurrency.** Every operation is sequential, with two exceptions. The admission commit is modelled against an arbitrary later store. The two-admission race is worked through as a finding.
- **Fan-out in revocation.** The `Promise.all` fan-out in `distrust_user` runs the children one after another in list order. The intermediate states a concurrent reader could observe are not modelled.
- **Usage-account update.** The non-atomic read-modify-write of the usage account is modelled as one step.
- **The served payload.** The static resource payload, its TextEncoder encoding and the unused `resource_url` are left out.
- **Other stored state.** The signed request history is kept as opaque strings. The client's ledger key prefix and the server's `user_usage_info_` key prefix are replaced by maps keyed by DID.
- Revocation.DistrustUser: the recursion is bounded by `fuel`.
  - The source recurses without a bound and would not terminate on a cycle of children links.
  - `Distrust` uses fuel equal to the number of stored nodes, which `ReachableWithinStore` shows is enough to reach every reachable node.
- Revocation.DistrustIdempotent: compares the stored nodes, not the entries. Every write issues a new versionstamp, so a second revocation changes versionstamps even though no node changes.

## Findings

| source | as written | input that shows it | evidently intended | confidence | as-written member | corrected member |
|---|---|---|---|---|---|---|
| node_server/src/add_user.ts:56-69 | the atomic commit checks only the signer's versionstamp, not that the new member's key is still absent | two trusted roots `s1`, `s2` admit the same DID `u` at the same time, and `s2`'s commit lands first; `s1`'s commit still succeeds, so `u`'s parent becomes `s1` while `s2` still lists `u` as a child | the commit also requires the new key to be absent, as the earlier existence check does, so the second admission aborts | not executed | Admission.ConcurrentSameUserBreaksLinks | Admission.CheckedAdmissionKeepsLinks |

=== FILE: admission.dfy ===
/**
 * Admission of a new member under a trusted signer: freshness, the trust
 * gate, absence of the new DID, then one atomic commit that writes the new
 * node and the signer's extended children list, guarded by the versionstamp
 * of the signer's entry as the trust gate read it.
 */
module Admission {
  import opened Constants
  import opened Wrappers
  import opened Timestamps
  import opened Messages
  import opened TrustTree

  datatype AddUserError =
    | InvalidTimestamp
    | NotEligible
    | UserAlreadyExists
    | ConcurrentModification

  datatype AddUserResult = Added | Refused(error: AddUserError)

  datatype AddUserReply = AddUserReply(kv: Kv, result: AddUserResult)

  /** The node admission creates: no children, trusted, the signer as parent, stamped with the request's own timestamp. */
  function AdmittedNode(signer: Did, request: AddUserRequest): TrustNode
  {
    TrustNode([], Some(signer), request.unixTimestamp, true, None)
  }

  /**
   * `r` is `before` with `newUser` written as `newNode` and the signer
   * written as `read` (the node the checks saw) with `newUser` appended to
   * its children, both under one fresh versionstamp; every other entry is
   * untouched.
   */
  ghost predicate Attached(before: Kv, r: Kv, signer: Did, read: TrustNode, newUser: Did, newNode: TrustNode)
  {
    && signer in before.entries
    && r.entries.Keys == before.entries.Keys + {newUser}
    && r.entries[signer].node == read.(children := read.children + [newUser])
    && (newUser != signer ==> r.entries[newUser].node == newNode)
    && (forall k :: k in before.entries && k != signer && k != newUser ==> r.entries[k] == before.entries[k])
    && r.entries[signer].versionstamp == before.nextVersionstamp
    && r.nextVersionstamp > before.nextVersionstamp
  }

  /**
   * Attaching a fresh leaf under a stored node whose children are as the
   * checks read them keeps parent and child links consistent and the roots.
   */
  lemma AttachedKeepsLinks(before: Kv, r: Kv, signer: Did, read: TrustNode, newUser: Did, newNode: TrustNode)
    requires LinksConsistent(before) && Attached(before, r, signer, read, newUser, newNode)
    requires signer in before.entries && before.entries[signer].node == read && newUser !in before.entries
    requires newNode.children == [] && newNode.parent == Some(signer)
    ensures LinksConsistent(r) && Roots(r) == Roots(before)
  {
    assert Shape(r) == Shape(before)[signer := Shape(before)[signer] + [newUser]][newUser := []];
    assert Parents(r) == Parents(before)[newUser := Some(signer)];
    AttachKeepsLinkMaps(Shape(before), Parents(before), signer, newUser);
  }

  /**
   * The atomic commit: if the signer's entry still carries the versionstamp
   * that was read, both writes happen with one new versionstamp; otherwise
   * neither does.
   */
  function CommitAdmission(kv: Kv, signer: Did, read: Entry, newUser: Did, newNode: TrustNode)
    : (r: Option<Kv>)
    ensures r.None? <==> signer !in kv.entries || kv.entries[signer].versionstamp != read.versionstamp
    ensures r.Some? ==>
              && r.value.entries.Keys == kv.entries.Keys + {newUser}
              && r.value.entries[signer].node == read.node.(children := read.node.children + [newUser])
              && (newUser != signer ==> r.value.entries[newUser].node == newNode)
              && (forall k :: k in kv.entries && k != signer && k != newUser ==> r.value.entries[k] == kv.entries[k])
              && r.value.entries[signer].versionstamp == kv.nextVersionstamp
              && r.value.nextVersionstamp > kv.nextVersionstamp
  {
    if signer !in kv.entries || kv.entries[signer].versionstamp != read.versionstamp then None
    else
      var v := kv.nextVersionstamp;
      var signerNode := read.node.(children := read.node.children + [newUser]);
      Some(Kv(kv.entries[newUser := Entry(newNode, v)][signer := Entry(signerNode, v)], v + 1))
  }

  /**
   * `add_user` when the checks read the store `kv` and the atomic commit
   * meets the store `atCommit` (the same store when nothing ran in between).
   * The checks refuse in order: a stale timestamp, a signer absent or
   * untrusted, a target that already has a node. Once they pass, the commit
   * lands iff the signer's versionstamp has not moved. Every refusal writes
   * nothing.
   */
  function AddUserInterleaved(kv: Kv, request: Signed<AddUserRequest>, now: int, atCommit: Kv)
    : (reply: AddUserReply)
    ensures reply.result.Refused? ==> reply.kv == atCommit
    ensures !IsValidTimestamp(request.payload.unixTimestamp, now) ==> reply.result == Refused(InvalidTimestamp)
    ensures IsValidTimestamp(request.payload.unixTimestamp, now)
            && (request.signer !in kv.entries || !kv.entries[request.signer].node.isTrusted) ==>
              reply.result == Refused(NotEligible)
    ensures IsValidTimestamp(request.payload.unixTimestamp, now)
            && request.signer in kv.entries && kv.entries[request.signer].node.isTrusted
            && request.payload.userId in kv.entries ==>
              reply.result == Refused(UserAlreadyExists)
    ensures reply.result == Added <==>
              && IsValidTimestamp(request.payload.unixTimestamp, now)
              && request.signer in kv.entries && kv.entries[request.signer].node.isTrusted
              && request.payload.userId !in kv.entries
              && request.signer in atCommit.entries
              && atCommit.entries[request.signer].versionstamp == kv.entries[request.signer].versionstamp
    ensures reply.result == Refused(ConcurrentModification) <==>
              && IsValidTimestamp(request.payload.unixTimestamp, now)
              && UserInGoodStanding(kv, request.signer).Some?
              && request.payload.userId !in kv.entries
              && (request.signer !in atCommit.entries
                  || atCommit.entries[request.signer].versionstamp != kv.entries[request.signer].versionstamp)
    ensures reply.result == Added ==>
              && request.signer in kv.entries && kv.entries[request.signer].node.isTrusted
              && request.payload.userId !in kv.entries
              && Attached(atCommit, reply.kv, request.signer, kv.entries[request.signer].node,
                          request.payload.userId, AdmittedNode(request.signer, request.payload))
  {
    var signer := request.signer;
    var req := request.payload;
    if !IsValidTimestamp(req.unixTimestamp, now) then AddUserReply(atCommit, Refused(InvalidTimestamp))
    else
      match UserInGoodStanding(kv, signer)
      case None => AddUserReply(atCommit, Refused(NotEligible))
      case Some(entry) =>
        if req.userId in kv.entries then AddUserReply(atCommit, Refused(UserAlreadyExists))
        else
          match CommitAdmission(atCommit, signer, entry, req.userId, AdmittedNode(signer, req))
          case None => AddUserReply(atCommit, Refused(ConcurrentModification))
          case Some(committed) => AddUserReply(committed, Added)
  }

  /**
   * `add_user` with the commit also guarded by the absence of the new
   * member's key, as the check on the target intends: when another admission
   * created that key after it was read, nothing is written and the caller
   * sees ConcurrentModification.
   */
  function AddUserChecked(kv: Kv, request: Signed<AddUserRequest>, now: int, atCommit: Kv)
    : (reply: AddUserReply)
    ensures reply.result.Refused? ==> reply.kv == atCommit
    ensures reply.result == Added ==>
              && AddUserInterleaved(kv, request, now, atCommit) == reply
              && request.payload.userId !in atCommit.entries
    ensures (AddUserInterleaved(kv, request, now, atCommit).result == Added
             && request.payload.userId !in atCommit.entries) ==> reply.result == Added
    ensures AddUserInterleaved(kv, request, now, atCommit).result.Refused? ==>
              reply == AddUserInterleaved(kv, request, now, atCommit)
  {
    var reply := AddUserInterleaved(kv, request, now, atCommit);
    if reply.result == Added && request.payload.userId in atCommit.entries then
      AddUserReply(atCommit, Refused(ConcurrentModification))
    else reply
  }

  /**
   * `add_user` run alone. It is refused with the first failing check, in
   * order: a stale timestamp, a signer absent or untrusted, a target that
   * already has a node. Otherwise exactly two keys are written: the new node
   * and the signer's node with the new DID appended to its children.
   */
  function AddUser(kv: Kv, request: Signed<AddUserRequest>, now: int): (reply: AddUserReply)
    ensures reply.result.Refused? ==> reply.kv == kv
    ensures reply.result != Refused(ConcurrentModification)
    ensures !IsValidTimestamp(request.payload.unixTimestamp, now) ==> reply.result == Refused(InvalidTimestamp)
    ensures IsValidTimestamp(request.payload.unixTimestamp, now)
            && (request.signer !in kv.entries || !kv.entries[request.signer].node.isTrusted) ==>
              reply.result == Refused(NotEligible)
    ensures IsValidTimestamp(request.payload.unixTimestamp, now)
            && request.signer in kv.entries && kv.entries[request.signer].node.isTrusted
            && request.payload.userId in kv.entries ==>
              reply.result == Refused(UserAlreadyExists)
    ensures reply.result == Added <==>
              && IsValidTimestamp(request.payload.unixTimestamp, now)
              && request.signer in kv.entries && kv.entries[request.signer].node.isTrusted
              && request.payload.userId !in kv.entries
    ensures reply.result == Added ==>
              var signerNode := kv.entries[request.signer].node;
              && reply.kv.entries.Keys == kv.entries.Keys + {request.payload.userId}
              && reply.kv.entries[request.payload.userId].node == AdmittedNode(request.signer, request.payload)
              && reply.kv.entries[request.signer].node
                   == signerNode.(children := signerNode.children + [request.payload.userId])
              && reply.kv.entries[request.signer].versionstamp == kv.nextVersionstamp
              && forall k :: k in kv.entries && k != request.signer ==> reply.kv.entries[k] == kv.entries[k]
  {
    AddUserInterleaved(kv, request, now, kv)
  }

  /**
   * Run alone, the corrected commit and the source's commit agree: the
   * existence check has just read the same store the commit meets.
   */
  lemma CheckedAgreesWhenSequential(kv: Kv, request: Signed<AddUserRequest>, now: int)
    ensures AddUserChecked(kv, request, now, kv) == AddUser(kv, request, now)
  {
  }

  /**
   * A write to the signer's entry between the trust-gate read and the commit
   * aborts the admission: the versionstamp no longer matches, nothing is
   * written and the caller sees ConcurrentModification.
   */
  lemma ConcurrentWriteAborts(kv: Kv, request: Signed<AddUserRequest>, now: int, overwrite: TrustNode)
    requires VersionstampsIssued(kv)
    requires IsValidTimestamp(request.payload.unixTimestamp, now)
    requires UserInGoodStanding(kv, request.signer).Some?
    requires request.payload.userId !in kv.entries
    ensures var atCommit := Set(kv, request.signer, overwrite);
            AddUserInterleaved(kv, request, now, atCommit) == AddUserReply(atCommit, Refused(ConcurrentModification))
  {
    SetChangesVersionstamp(kv, request.signer, overwrite);
  }

  /** Attaching a fresh leaf under a stored node keeps the links consistent. */
  lemma AttachKeepsLinkMaps(shape: map<Did, seq<Did>>, parents: map<Did, Option<Did>>, signer: Did, newUser: Did)
    requires LinksAgree(shape, parents)
    requires signer in shape && newUser !in parents
    ensures LinksAgree(shape[signer := shape[signer] + [newUser]][newUser := []],
                       parents[newUser := Some(signer)])
  {
    var shape' := shape[signer := shape[signer] + [newUser]][newUser := []];
    var parents' := parents[newUser := Some(signer)];
    forall p, c | p in shape' && c in shape'[p]
      ensures c in parents' && parents'[c] == Some(p)
    {
      if p == signer && c != newUser {
        assert c in shape[signer];
      }
    }
  }

  /** Admission keeps parent and child links consistent and keeps the set of roots. */
  lemma AddUserKeepsLinks(kv: Kv, request: Signed<AddUserRequest>, now: int)
    requires LinksConsistent(kv)
    ensures LinksConsistent(AddUser(kv, request, now).kv)
    ensures Roots(AddUser(kv, request, now).kv) == Roots(kv)
  {
    var reply := AddUser(kv, request, now);
    if reply.result == Added {
      AttachedKeepsLinks(kv, reply.kv, request.signer, kv.entries[request.signer].node,
                        request.payload.userId, AdmittedNode(request.signer, request.payload));
    }
  }

  /** Admission keeps every stored versionstamp issued. */
  lemma AddUserKeepsVersionstamps(kv: Kv, request: Signed<AddUserRequest>, now: int)
    requires VersionstampsIssued(kv)
    ensures VersionstampsIssued(AddUser(kv, request, now).kv)
  {
  }

  /** Once admitted, the new member passes the trust gate. */
  lemma AdmittedUserInGoodStanding(kv: Kv, request: Signed<AddUserRequest>, now: int)
    requires AddUser(kv, request, now).result == Added
    ensures UserInGoodStanding(AddUser(kv, request, now).kv, request.payload.userId).Some?
  {
  }

  /**
   * Replaying an accepted admission fails with UserAlreadyExists while its
   * timestamp is still fresh, though request ids are never tracked: the
   * target now has a node and the signer is still trusted.
   */
  lemma ReplayedAddUserFails(kv: Kv, request: Signed<AddUserRequest>, now1: int, now2: int)
    requires AddUser(kv, request, now1).result == Added
    requires IsValidTimestamp(request.payload.unixTimestamp, now2)
    ensures var kv1 := AddUser(kv, request, now1).kv;
            AddUser(kv1, request, now2) == AddUserReply(kv1, Refused(UserAlreadyExists))
  {
  }

  /**
   * What versionstamps promise between a read of the store and a later
   * state of it: an entry whose versionstamp is unchanged holds the same node.
   */
  ghost predicate StampsTrack(kv: Kv, atCommit: Kv)
  {
    forall k :: k in kv.entries && k in atCommit.entries
                && kv.entries[k].versionstamp == atCommit.entries[k].versionstamp ==>
                  kv.entries[k].node == atCommit.entries[k].node
  }

  /**
   * Two trusted members admit the same new DID at the same time, and the
   * second commit lands first. The source's commit guards only the signer's
   * entry, so the first commit still succeeds: it overwrites the new node
   * with a different parent while the other member keeps listing it as a
   * child, and parent and child links no longer agree.
   */
  lemma ConcurrentSameUserBreaksLinks(s1: Did, s2: Did, u: Did, t: int)
    requires s1 != s2 && u != s1 && u != s2
    ensures var kv := MakeRootUser(MakeRootUser(EmptyKv(), s1, t), s2, t);
            var first := Signed(AddUserRequest("first", u, t), s1);
            var second := Signed(AddUserRequest("second", u, t), s2);
            var atCommit := AddUser(kv, second, t).kv;
            var reply := AddUserInterleaved(kv, first, t, atCommit);
            && LinksConsistent(kv) && LinksConsistent(atCommit) && StampsTrack(kv, atCommit)
            && reply.result == Added
            && !LinksConsistent(reply.kv)
  {
    var kv := MakeRootUser(MakeRootUser(EmptyKv(), s1, t), s2, t);
    TwoRoots(s1, s2, t);
    var second := Signed(AddUserRequest("second", u, t), s2);
    SecondCommitsFirst(kv, s1, s2, u, t);
    var atCommit := AddUser(kv, second, t).kv;
    FirstCommitOverwrites(kv, atCommit, s1, s2, u, t);
  }

  /** Two parentless trusted members with no children. */
  lemma TwoRoots(s1: Did, s2: Did, t: int)
    requires s1 != s2
    ensures var kv := MakeRootUser(MakeRootUser(EmptyKv(), s1, t), s2, t);
            && kv.entries.Keys == {s1, s2}
            && kv.entries[s1].node == RootNode(t) && kv.entries[s2].node == RootNode(t)
            && LinksConsistent(kv) && VersionstampsIssued(kv)
  {
    var kv := MakeRootUser(MakeRootUser(EmptyKv(), s1, t), s2, t);
    assert kv == Kv(map[s1 := Entry(RootNode(t), 1), s2 := Entry(RootNode(t), 2)], 3);
    assert Parents(kv) == map[s1 := None, s2 := None];
    assert Shape(kv) == map[s1 := [], s2 := []];
  }

  /** The second admission commits on the two-root store: `u` is listed under `s2`, and `s1` is untouched. */
  lemma SecondCommitsFirst(kv: Kv, s1: Did, s2: Did, u: Did, t: int)
    requires s1 != s2 && u != s1 && u != s2
    requires kv.entries.Keys == {s1, s2}
    requires kv.entries[s1].node == RootNode(t) && kv.entries[s2].node == RootNode(t)
    requires LinksConsistent(kv) && VersionstampsIssued(kv)
    ensures var atCommit := AddUser(kv, Signed(AddUserRequest("second", u, t), s2), t).kv;
            && LinksConsistent(atCommit) && StampsTrack(kv, atCommit)
            && atCommit.entries.Keys == {s1, s2, u}
            && atCommit.entries[s1] == kv.entries[s1]
            && atCommit.entries[s2].node.children == [u]
  {
    var second := Signed(AddUserRequest("second", u, t), s2);
    ValidTimestampBoundary(t);
    AddUserKeepsLinks(kv, second, t);
  }

  /** The first admission, checked against the state the second left, still commits and breaks the links. */
  lemma FirstCommitOverwrites(kv: Kv, atCommit: Kv, s1: Did, s2: Did, u: Did, t: int)
    requires s1 != s2 && u != s1 && u != s2
    requires kv.entries.Keys == {s1, s2} && kv.entries[s1].node == RootNode(t)
    requires atCommit.entries.Keys == {s1, s2, u}
    requires atCommit.entries[s1] == kv.entries[s1]
    requires atCommit.entries[s2].node.children == [u]
    ensures var reply := AddUserInterleaved(kv, Signed(AddUserRequest("first", u, t), s1), t, atCommit);
            reply.result == Added && !LinksConsistent(reply.kv)
  {
    ValidTimestampBoundary(t);
    var reply := AddUserInterleaved(kv, Signed(AddUserRequest("first", u, t), s1), t, atCommit);
    var r := reply.kv;
    assert r.entries[s2] == atCommit.entries[s2];
    assert u in Shape(r)[s2];
    assert Parents(r)[u] == Some(s1);
  }

  /**
   * With the commit guarded by the new key's absence, admission keeps parent
   * and child links consistent against any store state reached since the
   * read, whatever ran in between.
   */
  lemma CheckedAdmissionKeepsLinks(kv: Kv, request: Signed<AddUserRequest>, now: int, atCommit: Kv)
    requires LinksConsistent(atCommit) && StampsTrack(kv, atCommit)
    ensures LinksConsistent(AddUserChecked(kv, request, now, atCommit).kv)
    ensures Roots(AddUserChecked(kv, request, now, atCommit).kv) == Roots(atCommit)
  {
    var reply := AddUserChecked(kv, request, now, atCommit);
    if reply.result == Added {
      var signer := request.signer;
      assert atCommit.entries[signer].node == kv.entries[signer].node;
      AttachedKeepsLinks(atCommit, reply.kv, signer, kv.entries[signer].node,
                        request.payload.userId, AdmittedNode(signer, request.payload));
    }
  }
}

=== FILE: authorizer.dfy ===
/**
 * The request limit evaluator of the local client: freshness, replay within
 * the freshness window, then each self-declared limit in list order; only
 * when all pass is one event appended to the signer's ledger and an
 * authorization issued.
 */
module Authorizer {
  import opened Constants
  import opened Wrappers
  import opened Timestamps
  import opened Limits
  import opened Messages
  import opened UsageEvents

  /** The client's persisted ledgers, one per resource-request signer; a missing key reads as an empty ledger. */
  type LedgerStore = map<Did, seq<Event>>

  function LoadUsage(store: LedgerStore, did: Did): seq<Event>
  {
    if did in store then store[did] else []
  }

  /** The 400 answers, each with the issue data the source reports. */
  datatype AuthorizeError =
    | InvalidTimestamp(provided: int, now: int)
    | DuplicateRequest(requestId: string)
    | BandwidthLimitExceeded(limit: Limit, windowBytes: nat, projectedBytes: nat)
    | RateLimitExceeded(limit: Limit, windowRequests: nat)

  /** 200 with the authorization envelope, or 400 with an error. */
  datatype AuthorizeResult =
    | Authorized(authorization: Signed<AuthorizeRequest>)
    | Rejected(error: AuthorizeError)

  datatype AuthorizeReply = AuthorizeReply(store: LedgerStore, result: AuthorizeResult)

  /**
   * The verdict of one limit on a request, given the pruned ledger: None when
   * the limit admits it. The window scan runs over `limit.perMs`; meeting the
   * request's own id there is a duplicate. A bandwidth limit rejects iff the
   * window's bytes plus the request's size exceed the budget; a rate limit
   * rejects iff the window already holds `maxRequests` requests or more.
   */
  function CheckLimit(events: seq<Event>, now: int, request: ResourceRequest, limit: Limit)
    : (verdict: Option<AuthorizeError>)
    ensures verdict.None? <==>
              && !FoundDuplicate(events, now, limit.perMs, request.requestId)
              && var k := RunStart(events, now - limit.perMs);
                 match limit
                 case Bandwidth(budget, _) => SumBytes(events[k..]) + request.requestSizeInBytes <= budget
                 case RateLimit(maxRequests, _) => |events| - k < maxRequests
    ensures FoundDuplicate(events, now, limit.perMs, request.requestId) ==>
              verdict == Some(DuplicateRequest(request.requestId))
    ensures verdict.Some? && limit.Bandwidth? ==> verdict.value.DuplicateRequest? || verdict.value.BandwidthLimitExceeded?
    ensures verdict.Some? && limit.RateLimit? ==> verdict.value.DuplicateRequest? || verdict.value.RateLimitExceeded?
  {
    match CountInWindow(events, now, limit.perMs, request.requestId)
    case None => Some(DuplicateRequest(request.requestId))
    case Some(stats) =>
      match limit
      case Bandwidth(budget, _) =>
        var projected := stats.bytes + request.requestSizeInBytes;
        if projected > budget then Some(BandwidthLimitExceeded(limit, stats.bytes, projected)) else None
      case RateLimit(maxRequests, _) =>
        if stats.requests >= maxRequests then Some(RateLimitExceeded(limit, stats.requests)) else None
  }

  /**
   * The limits are checked in list order and the first one that rejects
   * decides the answer; None iff every limit admits the request.
   */
  function CheckLimits(events: seq<Event>, now: int, request: ResourceRequest, limits: seq<Limit>)
    : (verdict: Option<AuthorizeError>)
    ensures verdict.None? <==>
              forall i :: 0 <= i < |limits| ==> CheckLimit(events, now, request, limits[i]).None?
    ensures verdict.Some? ==>
              exists i :: 0 <= i < |limits| && verdict == CheckLimit(events, now, request, limits[i])
                          && forall j :: 0 <= j < i ==> CheckLimit(events, now, request, limits[j]).None?
  {
    if |limits| == 0 then None
    else
      var first := CheckLimit(events, now, request, limits[0]);
      if first.Some? then first
      else
        var rest := CheckLimits(events, now, request, limits[1..]);
        LimitsTail(events, now, request, limits, rest);
        rest
  }

  /** How the verdict on `limits[1..]` lifts to `limits` when the first limit admits the request. */
  lemma LimitsTail(events: seq<Event>, now: int, request: ResourceRequest, limits: seq<Limit>,
                   rest: Option<AuthorizeError>)
    requires |limits| > 0 && CheckLimit(events, now, request, limits[0]).None?
    requires rest.None? <==>
               forall i :: 0 <= i < |limits| - 1 ==> CheckLimit(events, now, request, limits[1..][i]).None?
    requires rest.Some? ==>
               exists i :: 0 <= i < |limits| - 1 && rest == CheckLimit(events, now, request, limits[1..][i])
                           && forall j :: 0 <= j < i ==> CheckLimit(events, now, request, limits[1..][j]).None?
    ensures rest.None? <==>
              forall i :: 0 <= i < |limits| ==> CheckLimit(events, now, request, limits[i]).None?
    ensures rest.Some? ==>
              exists i :: 0 <= i < |limits| && rest == CheckLimit(events, now, request, limits[i])
                          && forall j :: 0 <= j < i ==> CheckLimit(events, now, request, limits[j]).None?
  {
    if rest.None? {
      forall i | 0 <= i < |limits|
        ensures CheckLimit(events, now, request, limits[i]).None?
      {
        if i > 0 {
          assert limits[i] == limits[1..][i - 1];
        }
      }
    } else {
      var i :| 0 <= i < |limits| - 1 && rest == CheckLimit(events, now, request, limits[1..][i])
               && forall j :: 0 <= j < i ==> CheckLimit(events, now, request, limits[1..][j]).None?;
      assert limits[i + 1] == limits[1..][i];
      forall j | 0 <= j < i + 1
        ensures CheckLimit(events, now, request, limits[j]).None?
      {
        if j > 0 {
          assert limits[j] == limits[1..][j - 1];
        }
      }
    }
  }

  /** The event an accepted request appends: stamped with the evaluator's clock, not the request's. */
  function AcceptedEvent(request: ResourceRequest, now: int): Event
  {
    Event(now, request.requestSizeInBytes, request.requestId)
  }

  /**
   * Authorizes the verified resource request `envelope` at time `now` for the
   * evaluator `client`. Every rejection leaves the store as it was; an
   * acceptance stores the pruned ledger with exactly one event appended and
   * returns the authorization, signed by `client`, carrying `now` and the
   * caller-supplied fresh `authorizeId`.
   */
  function Authorize(store: LedgerStore, client: Did, envelope: Signed<ResourceRequest>, now: int,
                     authorizeId: string, ignoreLimits: bool): (reply: AuthorizeReply)
    ensures reply.result.Rejected? ==> reply.store == store
    ensures
      var request := envelope.payload;
      var events := PruneOld(LoadUsage(store, envelope.signer), now);
      reply.result.Authorized? <==>
        && IsValidTimestamp(request.requestUnixTimestamp, now)
        && !FoundDuplicate(events, now, MaxTimestampDiffMs, request.requestId)
        && (ignoreLimits || forall i :: 0 <= i < |request.limits| ==>
                              CheckLimit(events, now, request, request.limits[i]).None?)
    ensures reply.result.Authorized? ==>
              && reply.store == store[envelope.signer :=
                   PruneOld(LoadUsage(store, envelope.signer), now) + [AcceptedEvent(envelope.payload, now)]]
              && reply.result.authorization == Signed(AuthorizeRequest(envelope, now, authorizeId), client)
    ensures !IsValidTimestamp(envelope.payload.requestUnixTimestamp, now) ==>
              reply.result == Rejected(InvalidTimestamp(envelope.payload.requestUnixTimestamp, now))
    ensures IsValidTimestamp(envelope.payload.requestUnixTimestamp, now)
            && FoundDuplicate(PruneOld(LoadUsage(store, envelope.signer), now), now, MaxTimestampDiffMs,
                              envelope.payload.requestId) ==>
              reply.result == Rejected(DuplicateRequest(envelope.payload.requestId))
  {
    var request := envelope.payload;
    var events := PruneOld(LoadUsage(store, envelope.signer), now);
    if !IsValidTimestamp(request.requestUnixTimestamp, now) then
      AuthorizeReply(store, Rejected(InvalidTimestamp(request.requestUnixTimestamp, now)))
    else if FoundDuplicate(events, now, MaxTimestampDiffMs, request.requestId) then
      AuthorizeReply(store, Rejected(DuplicateRequest(request.requestId)))
    else
      var verdict := if ignoreLimits then None else CheckLimits(events, now, request, request.limits);
      match verdict
      case Some(error) => AuthorizeReply(store, Rejected(error))
      case None =>
        AuthorizeReply(store[envelope.signer := events + [AcceptedEvent(request, now)]],
                       Authorized(Signed(AuthorizeRequest(envelope, now, authorizeId), client)))
  }

  /**
   * Resubmitting an authorized request is rejected as a duplicate, whatever
   * `ignoreLimits` says, as long as its timestamp is still fresh: the event
   * the first call appended is the newest one and carries the same id.
   */
  lemma ResubmissionRejected(store: LedgerStore, client: Did, envelope: Signed<ResourceRequest>,
                             now1: int, now2: int, id1: string, id2: string,
                             ignore1: bool, ignore2: bool)
    requires Authorize(store, client, envelope, now1, id1, ignore1).result.Authorized?
    requires IsValidTimestamp(envelope.payload.requestUnixTimestamp, now2)
    ensures
      var store1 := Authorize(store, client, envelope, now1, id1, ignore1).store;
      Authorize(store1, client, envelope, now2, id2, ignore2).result
        == Rejected(DuplicateRequest(envelope.payload.requestId))
  {
    var request := envelope.payload;
    var store1 := Authorize(store, client, envelope, now1, id1, ignore1).store;
    var pruned1 := PruneOld(LoadUsage(store, envelope.signer), now1);
    var e := AcceptedEvent(request, now1);
    assert LoadUsage(store1, envelope.signer) == pruned1 + [e];
    FreshForBoth(request.requestUnixTimestamp, now1, now2);
    PruneOldAppend(pruned1, [e], now2);
    assert PruneOld([e], now2) == [e];
    var events2 := PruneOld(pruned1, now2) + [e];
    assert events2[|events2| - 1] == e;
    assert ScanReaches(events2, now2 - MaxTimestampDiffMs, |events2| - 1);
  }

  /** `ignoreLimits` skips the per-limit checks and nothing else. */
  lemma IgnoreLimitsOnlySkipsLimits(store: LedgerStore, client: Did, envelope: Signed<ResourceRequest>,
                                    now: int, authorizeId: string)
    ensures var strict := Authorize(store, client, envelope, now, authorizeId, false);
            var lax := Authorize(store, client, envelope, now, authorizeId, true);
            && (strict.result.Authorized? ==> lax == strict)
            && (lax.result.Rejected? ==> strict == lax)
            && (lax.result.Authorized? && strict.result.Rejected? ==>
                  strict.result.error == CheckLimits(PruneOld(LoadUsage(store, envelope.signer), now), now,
                                                     envelope.payload, envelope.payload.limits).value)
  {
  }

  /** A limit that admits a request against an empty window. */
  predicate AdmitsAlone(limit: Limit, requestSizeInBytes: nat)
  {
    match limit
    case Bandwidth(budget, _) => requestSizeInBytes <= budget
    case RateLimit(maxRequests, _) => 1 <= maxRequests
  }

  /**
   * Once every window has elapsed, a request shape that each limit admits on
   * its own is accepted again: a fresh id, a fresh timestamp and a ledger
   * whose events all predate every limit's window.
   */
  lemma WindowElapsedAccepts(store: LedgerStore, client: Did, envelope: Signed<ResourceRequest>,
                             now: int, authorizeId: string)
    requires IsValidTimestamp(envelope.payload.requestUnixTimestamp, now)
    requires forall e :: e in LoadUsage(store, envelope.signer) ==> e.requestId != envelope.payload.requestId
    requires forall i, e :: 0 <= i < |envelope.payload.limits| && e in LoadUsage(store, envelope.signer) ==>
               e.ts < now - envelope.payload.limits[i].perMs
    requires forall i :: 0 <= i < |envelope.payload.limits| ==>
               AdmitsAlone(envelope.payload.limits[i], envelope.payload.requestSizeInBytes)
    ensures Authorize(store, client, envelope, now, authorizeId, false).result.Authorized?
  {
    var request := envelope.payload;
    var events := PruneOld(LoadUsage(store, envelope.signer), now);
    forall i | 0 <= i < |request.limits|
      ensures CheckLimit(events, now, request, request.limits[i]).None?
    {
      var limit := request.limits[i];
      if |events| > 0 {
        assert events[|events| - 1] in events;
        CountInWindowStale(events, now, limit.perMs, request.requestId);
      }
    }
  }

  /**
   * On an empty ledger a request with a fresh timestamp is accepted when each
   * of its limits admits it on its own, and the ledger then holds just its
   * event.
   */
  lemma FirstRequestAccepted(client: Did, signer: Did, url: string, t: int, limits: seq<Limit>, size: nat,
                             id: string, authorizeId: string)
    requires forall i :: 0 <= i < |limits| ==> AdmitsAlone(limits[i], size)
    ensures var envelope := Signed(ResourceRequest(url, t, limits, size, id), signer);
            var reply := Authorize(map[], client, envelope, t, authorizeId, false);
            && reply.result.Authorized?
            && reply.store == map[signer := [Event(t, size, id)]]
  {
    ValidTimestampBoundary(t);
    var envelope := Signed(ResourceRequest(url, t, limits, size, id), signer);
    assert LoadUsage(map[], signer) == [];
    WindowElapsedAccepts(map[], client, envelope, t, authorizeId);
    assert PruneOld([], t) == [];
    assert [] + [AcceptedEvent(envelope.payload, t)] == [Event(t, size, id)];
  }

  /** A request with no limits, a fresh id and a fresh timestamp is accepted on an empty ledger. */
  lemma NoLimitPasses(client: Did, signer: Did, url: string, t: int, size: nat, id: string,
                      authorizeId: string)
    ensures var envelope := Signed(ResourceRequest(url, t, [], size, id), signer);
            var reply := Authorize(map[], client, envelope, t, authorizeId, false);
            && reply.result.Authorized?
            && reply.store == map[signer := [Event(t, size, id)]]
  {
    FirstRequestAccepted(client, signer, url, t, [], size, id, authorizeId);
  }

  /** The ledger of one request of 1024 bytes at `t`, as the evaluator sees it at `t`. */
  lemma OneEventLedger(signer: Did, t: int, a: string, windowMs: int)
    requires 0 < windowMs
    ensures var events := PruneOld(LoadUsage(map[signer := [Event(t, 1024, a)]], signer), t);
            && events == [Event(t, 1024, a)]
            && RunStart(events, t - windowMs) == 0
  {
    var events := PruneOld([Event(t, 1024, a)], t);
    assert events == [Event(t, 1024, a)];
  }

  /** A second request within a one-request-per-second window is rejected with one request counted. */
  lemma SecondRequestRateLimited(client: Did, signer: Did, url: string, t: int, a: string, b: string,
                                 authorizeId: string)
    requires a != b
    ensures Authorize(map[signer := [Event(t, 1024, a)]], client,
                      Signed(ResourceRequest(url, t, [RateLimit(1, 1000)], 1024, b), signer), t, authorizeId, false)
              .result == Rejected(RateLimitExceeded(RateLimit(1, 1000), 1))
  {
    ValidTimestampBoundary(t);
    OneEventLedger(signer, t, a, 1000);
  }

  /** A second 1024-byte request within a 1500-bytes-per-second window is rejected at 2048 projected bytes. */
  lemma SecondRequestOverBandwidth(client: Did, signer: Did, url: string, t: int, a: string, b: string,
                                   authorizeId: string)
    requires a != b
    ensures Authorize(map[signer := [Event(t, 1024, a)]], client,
                      Signed(ResourceRequest(url, t, [Bandwidth(1500, 1000)], 1024, b), signer), t, authorizeId, false)
              .result == Rejected(BandwidthLimitExceeded(Bandwidth(1500, 1000), 1024, 2048))
  {
    ValidTimestampBoundary(t);
    OneEventLedger(signer, t, a, 1000);
    var events := [Event(t, 1024, a)];
    assert events[0..] == events;
  }

  /**
   * A rate limit of one request per second: the first request passes, a
   * second one with a new id at the same instant is rejected with one
   * request in the window, and after the window has passed (here 50 ms) the
   * same shape passes again.
   */
  lemma RateLimitScenario(client: Did, signer: Did, url: string, t: int, later: int,
                          a: string, b: string, id1: string, id2: string)
    requires a != b
    requires t + 50 < later <= t + MaxTimestampDiffMs
    ensures
      var limits := [RateLimit(1, 1000)];
      var first := Authorize(map[], client, Signed(ResourceRequest(url, t, limits, 1024, a), signer), t, id1, false);
      && first.result.Authorized?
      && Authorize(first.store, client, Signed(ResourceRequest(url, t, limits, 1024, b), signer), t, id2, false).result
           == Rejected(RateLimitExceeded(RateLimit(1, 1000), 1))
    ensures
      var limits := [RateLimit(1, 50)];
      var first := Authorize(map[], client, Signed(ResourceRequest(url, t, limits, 1024, a), signer), t, id1, false);
      && first.result.Authorized?
      && Authorize(first.store, client, Signed(ResourceRequest(url, later, limits, 1024, b), signer), later, id2, false)
           .result.Authorized?
  {
    FirstRequestAccepted(client, signer, url, t, [RateLimit(1, 1000)], 1024, a, id1);
    SecondRequestRateLimited(client, signer, url, t, a, b, id2);
    FirstRequestAccepted(client, signer, url, t, [RateLimit(1, 50)], 1024, a, id1);
    LaterRequestAccepted(client, signer, url, t, later, [RateLimit(1, 50)], a, b, id2);
  }

  /**
   * A bandwidth limit of 1500 bytes per second with 1024-byte requests: the
   * first passes, an immediate second is rejected (1024 + 1024 > 1500), and
   * once a 50 ms window has passed the shape passes again.
   */
  lemma BandwidthScenario(client: Did, signer: Did, url: string, t: int, later: int,
                          a: string, b: string, id1: string, id2: string)
    requires a != b
    requires t + 50 < later <= t + MaxTimestampDiffMs
    ensures
      var limits := [Bandwidth(1500, 1000)];
      var first := Authorize(map[], client, Signed(ResourceRequest(url, t, limits, 1024, a), signer), t, id1, false);
      && first.result.Authorized?
      && Authorize(first.store, client, Signed(ResourceRequest(url, t, limits, 1024, b), signer), t, id2, false).result
           == Rejected(BandwidthLimitExceeded(Bandwidth(1500, 1000), 1024, 2048))
    ensures
      var limits := [Bandwidth(1500, 50)];
      var first := Authorize(map[], client, Signed(ResourceRequest(url, t, limits, 1024, a), signer), t, id1, false);
      && first.result.Authorized?
      && Authorize(first.store, client, Signed(ResourceRequest(url, later, limits, 1024, b), signer), later, id2, false)
           .result.Authorized?
  {
    FirstRequestAccepted(client, signer, url, t, [Bandwidth(1500, 1000)], 1024, a, id1);
    SecondRequestOverBandwidth(client, signer, url, t, a, b, id2);
    FirstRequestAccepted(client, signer, url, t, [Bandwidth(1500, 50)], 1024, a, id1);
    LaterRequestAccepted(client, signer, url, t, later, [Bandwidth(1500, 50)], a, b, id2);
  }

  /** After a 50 ms window has passed, a second 1024-byte request with a new id is accepted again. */
  lemma LaterRequestAccepted(client: Did, signer: Did, url: string, t: int, later: int, limits: seq<Limit>,
                             a: string, b: string, authorizeId: string)
    requires a != b
    requires t + 50 < later <= t + MaxTimestampDiffMs
    requires |limits| == 1 && limits[0].perMs == 50 && AdmitsAlone(limits[0], 1024)
    ensures Authorize(map[signer := [Event(t, 1024, a)]], client,
                      Signed(ResourceRequest(url, later, limits, 1024, b), signer), later, authorizeId, false)
              .result.Authorized?
  {
    ValidTimestampBoundary(later);
    var store := map[signer := [Event(t, 1024, a)]];
    assert LoadUsage(store, signer) == [Event(t, 1024, a)];
    WindowElapsedAccepts(store, client, Signed(ResourceRequest(url, later, limits, 1024, b), signer), later, authorizeId);
  }
}

=== FILE: constants.dfy ===
/**
 * Time constants shared by client and server, in milliseconds, and the
 * identity handle used as a key everywhere.
 */
module Constants {

  /** A DID string naming an authenticated public key; compared by exact equality. */
  type Did = string

  const MsSecond: nat := 1000
  const MsMinute: nat := 60 * MsSecond
  const MsHour: nat := 60 * MsMinute
  const MsDay: nat := 24 * MsHour
  const MsYear: nat := 365 * MsDay

  /** The retention ceiling of the client's usage ledger: one year. */
  const MaxWindowMs: nat := MsYear
}

=== FILE: limits.dfy ===
/**
 * The self-declared limits a resource request carries: a byte budget or a
 * request-count budget over a rolling window of `perMs` milliseconds.
 * Several limits may apply to one request together (say, 100 bytes per
 * second and 1 MB per hour).
 */
module Limits {
  import opened Wrappers

  /** The wire tag of a bandwidth limit, misspelled exactly as the schema spells it. */
  const BandwidthTag: string := "bandwitdth"
  const RateLimitTag: string := "rate_limit"

  datatype Limit =
    | Bandwidth(bytes: int, perMs: int)
    | RateLimit(maxRequests: int, perMs: int)
  {
    /** The schema's numeric constraints: a non-negative budget and a positive window. */
    predicate Valid() {
      match this
      case Bandwidth(bytes, perMs) => bytes >= 0 && perMs > 0
      case RateLimit(maxRequests, perMs) => maxRequests >= 0 && perMs > 0
    }

    /** The `kind` discriminator the limit carries on the wire. */
    function Kind(): string {
      if Bandwidth? then BandwidthTag else RateLimitTag
    }

    /** The budget: bytes for a bandwidth limit, requests for a rate limit. */
    function Budget(): int {
      if Bandwidth? then bytes else maxRequests
    }
  }

  /**
   * Schema validation of a limit given as its `kind` tag and two integer
   * fields: the union admits exactly the two tagged variants with their
   * numeric constraints.
   */
  function ParseLimit(kind: string, budget: int, perMs: int): (r: Option<Limit>)
    ensures r.Some? <==>
              (kind == BandwidthTag || kind == RateLimitTag) && budget >= 0 && perMs > 0
    ensures r.Some? ==>
              && r.value.Valid() && r.value.Kind() == kind
              && r.value.Budget() == budget && r.value.perMs == perMs
  {
    if budget < 0 || perMs <= 0 then None
    else if kind == BandwidthTag then Some(Bandwidth(budget, perMs))
    else if kind == RateLimitTag then Some(RateLimit(budget, perMs))
    else None
  }

  /** Every valid limit survives a round trip through its wire fields. */
  lemma ParseLimitRoundTrip(l: Limit)
    requires l.Valid()
    ensures ParseLimit(l.Kind(), l.Budget(), l.perMs) == Some(l)
  {
  }

  /** The two tags differ, so the `kind` field alone tells the variants apart. */
  lemma KindDiscriminates(a: Limit, b: Limit)
    ensures a.Kind() == b.Kind() <==> a.Bandwidth? == b.Bandwidth?
  {
    assert BandwidthTag[0] != RateLimitTag[0];
  }
}

=== FILE: messages.dfy ===
/**
 * The payloads carried inside signed envelopes. Envelope verification is an
 * external collaborator: a `Signed<T>` is what it returns on success, the
 * schema-checked payload together with the DID that signed it.
 */
module Messages {
  import opened Constants
  import opened Limits

  datatype Signed<T> = Signed(payload: T, signer: Did)

  /** A request for a resource, declaring the limits its signer wants enforced. */
  datatype ResourceRequest = ResourceRequest(
    resourceUrl: string,
    requestUnixTimestamp: int,
    limits: seq<Limit>,
    requestSizeInBytes: nat,
    requestId: string)

  /** The authorization the limit evaluator issues: it wraps the signed resource request. */
  datatype AuthorizeRequest = AuthorizeRequest(
    resourceRequest: Signed<ResourceRequest>,
    unixTimestamp: int,
    authorizeId: string)

  /** A trusted signer's request to admit `userId` under itself. */
  datatype AddUserRequest = AddUserRequest(
    requestId: string,
    userId: Did,
    unixTimestamp: int)
}

=== FILE: resource_server.dfy ===
/**
 * The resource server's gate for an authorization presented by a member:
 * freshness, the trust gate, the issuer of the wrapped resource request,
 * replay detection against the member's usage account, then the account is
 * persisted and a member who exceeded the per-second byte budget is revoked
 * together with everyone admitted below it.
 */
module ResourceServer {
  import opened Constants
  import opened Wrappers
  import opened Timestamps
  import opened Messages
  import opened TrustTree
  import opened Revocation
  import opened UsageAccount

  /** Bytes a member may move within one second before it is banned. */
  const MaxBytesPerSecond: nat := 2048

  /** The server's per-member usage accounts, keyed by member DID. */
  type UsageStore = map<Did, UserUsageInfo>

  datatype ServeError =
    | InvalidTimestamp
    | NotEligible
    | WrongIssuer
    | ReplayDetected
    | RateLimitBanned

  datatype ServeResult = Served | Refused(error: ServeError)

  /** The trust store and usage accounts after the call, and its outcome. */
  datatype ServeReply = ServeReply(trust: Kv, usage: UsageStore, result: ServeResult)

  /**
   * The parts separated by `sep`, as `Array.prototype.join` builds it: empty
   * for no parts, the part itself for one, and otherwise it begins with the
   * first part and ends with the last; `JoinConcat` shows that each two
   * neighbouring parts are separated by exactly one `sep`.
   */
  function Join(parts: seq<string>, sep: string): (s: string)
    ensures |parts| == 0 ==> s == ""
    ensures |parts| == 1 ==> s == parts[0]
    ensures |parts| > 0 ==> parts[0] <= s
    ensures |parts| > 0 ==> |parts[|parts| - 1]| <= |s| && s[|s| - |parts[|parts| - 1]|..] == parts[|parts| - 1]
  {
    if |parts| == 0 then ""
    else if |parts| == 1 then parts[0]
    else
      var init := Join(parts[..|parts| - 1], sep);
      assert parts[..|parts| - 1][0] == parts[0];
      init + sep + parts[|parts| - 1]
  }

  /** The stored account of `did`, or a fresh one stamped `now` on first access. */
  function StoredInfo(usage: UsageStore, did: Did, now: int): (info: UserUsageInfo)
    ensures did in usage ==> info == usage[did]
    ensures did !in usage ==>
              && info.lastUpdateUnixTimestamp == now
              && info.requestIdHistory == [] && info.signedRequestHistory == []
              && info.totalBytes == UsageOverTime(0, 0, 0, 0, 0, 0, 0, 0)
              && info.totalRequests == UsageOverTime(0, 0, 0, 0, 0, 0, 0, 0)
  {
    if did in usage then usage[did] else FreshAccount(now)
  }

  /**
   * Bytes counted in the per-second bucket once an access of `bytes` bytes
   * at `now` is recorded: the bucket restarts when a whole second has passed
   * since the last update.
   */
  function SecondWindowBytes(info: UserUsageInfo, now: int, bytes: nat): int
  {
    (if now - info.lastUpdateUnixTimestamp >= MsSecond then 0 else info.totalBytes.lastSecond) + bytes
  }

  /** The checks that must pass before the usage account is touched. */
  predicate PassesGate(serverDid: Did, trust: Kv, usage: UsageStore, request: Signed<AuthorizeRequest>, now: int)
  {
    var resource := request.payload.resourceRequest;
    && IsValidTimestamp(request.payload.unixTimestamp, now)
    && request.signer in trust.entries && trust.entries[request.signer].node.isTrusted
    && resource.signer == serverDid
    && resource.payload.requestId !in StoredInfo(usage, request.signer, now).requestIdHistory
  }

  /**
   * The step after the account is persisted: a member whose per-second byte
   * bucket exceeds the budget is revoked, with its request id history joined
   * by newlines as the proof; otherwise the resource is served.
   */
  function Settle(trust: Kv, usage: UsageStore, signer: Did, after: UserUsageInfo): (reply: ServeReply)
    ensures reply.usage == usage[signer := after]
    ensures reply.result == Served <==> after.totalBytes.lastSecond <= MaxBytesPerSecond
    ensures reply.result == Served ==> reply.trust == trust
    ensures reply.result != Served ==>
              && reply.result == Refused(RateLimitBanned)
              && reply.trust == Distrust(trust, signer, Join(after.requestIdHistory, "\n"))
  {
    var recorded := usage[signer := after];
    if after.totalBytes.lastSecond > MaxBytesPerSecond then
      ServeReply(Distrust(trust, signer, Join(after.requestIdHistory, "\n")), recorded, Refused(RateLimitBanned))
    else
      ServeReply(trust, recorded, Served)
  }

  /**
   * `get_protected_resource` on an envelope that verified with signer
   * `request.signer`. `requestJws` is the serialized envelope that goes into
   * the signed-request history.
   */
  function Serve(serverDid: Did, trust: Kv, usage: UsageStore, request: Signed<AuthorizeRequest>,
                 requestJws: string, now: int): (reply: ServeReply)
    ensures reply.result.Refused? && reply.result.error != RateLimitBanned ==>
              reply.trust == trust && reply.usage == usage
    ensures !IsValidTimestamp(request.payload.unixTimestamp, now) ==> reply.result == Refused(InvalidTimestamp)
    ensures IsValidTimestamp(request.payload.unixTimestamp, now)
            && (request.signer !in trust.entries || !trust.entries[request.signer].node.isTrusted) ==>
              reply.result == Refused(NotEligible)
    ensures IsValidTimestamp(request.payload.unixTimestamp, now)
            && request.signer in trust.entries && trust.entries[request.signer].node.isTrusted
            && request.payload.resourceRequest.signer != serverDid ==>
              reply.result == Refused(WrongIssuer)
    ensures IsValidTimestamp(request.payload.unixTimestamp, now)
            && request.signer in trust.entries && trust.entries[request.signer].node.isTrusted
            && request.payload.resourceRequest.signer == serverDid
            && request.payload.resourceRequest.payload.requestId
                 in StoredInfo(usage, request.signer, now).requestIdHistory ==>
              reply.result == Refused(ReplayDetected)
    ensures reply.result == Served || reply.result == Refused(RateLimitBanned) ==>
              PassesGate(serverDid, trust, usage, request, now)
  {
    var signer := request.signer;
    var resource := request.payload.resourceRequest;
    if !IsValidTimestamp(request.payload.unixTimestamp, now) then
      ServeReply(trust, usage, Refused(InvalidTimestamp))
    else if UserInGoodStanding(trust, signer).None? then
      ServeReply(trust, usage, Refused(NotEligible))
    else if resource.signer != serverDid then
      ServeReply(trust, usage, Refused(WrongIssuer))
    else
      var before := StoredInfo(usage, signer, now);
      match UpdateInfo(before, now, resource.payload.requestSizeInBytes, requestJws, resource.payload.requestId)
      case None => ServeReply(trust, usage, Refused(ReplayDetected))
      case Some(after) =>
        assert Bucket(after.totalBytes, Second) == after.totalBytes.lastSecond;
        Settle(trust, usage, signer, after)
  }

  /**
   * A request that passes the gate is recorded in the member's account: the
   * stamp becomes `now`, both histories grow by this request, the per-second
   * bucket restarts after a whole second, and no other account changes. The
   * stored account is exactly the result of `UpdateInfo` on the account read.
   */
  lemma ServeRecordsAccess(serverDid: Did, trust: Kv, usage: UsageStore, request: Signed<AuthorizeRequest>,
                           requestJws: string, now: int)
    requires PassesGate(serverDid, trust, usage, request, now)
    ensures var reply := Serve(serverDid, trust, usage, request, requestJws, now);
            var resource := request.payload.resourceRequest.payload;
            var before := StoredInfo(usage, request.signer, now);
            var after := reply.usage[request.signer];
            && reply.usage.Keys == usage.Keys + {request.signer}
            && (forall d :: d in usage && d != request.signer ==> reply.usage[d] == usage[d])
            && after.lastUpdateUnixTimestamp == now
            && after.requestIdHistory == before.requestIdHistory + [resource.requestId]
            && after.signedRequestHistory == before.signedRequestHistory + [requestJws]
            && after.totalBytes.lastSecond == SecondWindowBytes(before, now, resource.requestSizeInBytes)
            && reply.usage == usage[request.signer :=
                 UpdateInfo(before, now, resource.requestSizeInBytes, requestJws, resource.requestId).value]
  {
    var resource := request.payload.resourceRequest.payload;
    var before := StoredInfo(usage, request.signer, now);
    var after := UpdateInfo(before, now, resource.requestSizeInBytes, requestJws, resource.requestId).value;
    assert Bucket(after.totalBytes, Second) == after.totalBytes.lastSecond;
    assert Serve(serverDid, trust, usage, request, requestJws, now) == Settle(trust, usage, request.signer, after);
  }

  /**
   * A request that passes the gate is served iff the per-second bucket stays
   * within the budget, leaving the trust store alone; otherwise the member is
   * revoked with its request id history, newline-joined, as the proof.
   */
  lemma ServeEnforcesBudget(serverDid: Did, trust: Kv, usage: UsageStore, request: Signed<AuthorizeRequest>,
                            requestJws: string, now: int)
    requires PassesGate(serverDid, trust, usage, request, now)
    ensures var reply := Serve(serverDid, trust, usage, request, requestJws, now);
            var resource := request.payload.resourceRequest.payload;
            var before := StoredInfo(usage, request.signer, now);
            && (reply.result == Served <==>
                  SecondWindowBytes(before, now, resource.requestSizeInBytes) <= MaxBytesPerSecond)
            && (reply.result == Served ==> reply.trust == trust)
            && (reply.result != Served ==>
                  && reply.result == Refused(RateLimitBanned)
                  && reply.trust == Distrust(trust, request.signer,
                                             Join(before.requestIdHistory + [resource.requestId], "\n")))
  {
    var reply := Serve(serverDid, trust, usage, request, requestJws, now);
    var resource := request.payload.resourceRequest.payload;
    var before := StoredInfo(usage, request.signer, now);
    var after := UpdateInfo(before, now, resource.requestSizeInBytes, requestJws, resource.requestId).value;
    assert Bucket(after.totalBytes, Second) == after.totalBytes.lastSecond;
    assert after.totalBytes.lastSecond == SecondWindowBytes(before, now, resource.requestSizeInBytes);
    assert reply == Settle(trust, usage, request.signer, after);
    assert after.requestIdHistory == before.requestIdHistory + [resource.requestId];
  }

  /**
   * A banned member, and every member reachable from it through children
   * links, leaves good standing; its direct children are the first case.
   */
  lemma BanRevokesSubtree(serverDid: Did, trust: Kv, usage: UsageStore, request: Signed<AuthorizeRequest>,
                          requestJws: string, now: int, child: Did)
    requires Serve(serverDid, trust, usage, request, requestJws, now).result == Refused(RateLimitBanned)
    ensures UserInGoodStanding(Serve(serverDid, trust, usage, request, requestJws, now).trust, request.signer).None?
    ensures child in trust.entries && child in trust.entries[request.signer].node.children ==>
              UserInGoodStanding(Serve(serverDid, trust, usage, request, requestJws, now).trust, child).None?
    ensures forall k :: k in trust.entries && Reachable(Shape(trust), request.signer, k) ==>
              UserInGoodStanding(Serve(serverDid, trust, usage, request, requestJws, now).trust, k).None?
  {
    var reply := Serve(serverDid, trust, usage, request, requestJws, now);
    var proof := Join(reply.usage[request.signer].requestIdHistory, "\n");
    DistrustedUserNotInGoodStanding(trust, request.signer, proof);
    if child in trust.entries && child in trust.entries[request.signer].node.children {
      DistrustedChildNotInGoodStanding(trust, request.signer, child, proof);
    }
  }

  /** After a ban, every later request of the member is refused as not eligible, and nothing changes. */
  lemma BannedMemberRefused(serverDid: Did, trust: Kv, usage: UsageStore, request: Signed<AuthorizeRequest>,
                            requestJws: string, now: int,
                            later: Signed<AuthorizeRequest>, laterJws: string, laterNow: int)
    requires Serve(serverDid, trust, usage, request, requestJws, now).result == Refused(RateLimitBanned)
    requires later.signer == request.signer
    requires IsValidTimestamp(later.payload.unixTimestamp, laterNow)
    ensures var reply := Serve(serverDid, trust, usage, request, requestJws, now);
            Serve(serverDid, reply.trust, reply.usage, later, laterJws, laterNow)
              == ServeReply(reply.trust, reply.usage, Refused(NotEligible))
  {
    BanRevokesSubtree(serverDid, trust, usage, request, requestJws, now, request.signer);
  }

  /**
   * Presenting a served authorization again is refused as a replay while its
   * timestamp is fresh, and the replay neither bans nor records anything.
   */
  lemma ReplayRefusedWithoutBan(serverDid: Did, trust: Kv, usage: UsageStore, request: Signed<AuthorizeRequest>,
                                requestJws: string, now: int, againJws: string, againNow: int)
    requires Serve(serverDid, trust, usage, request, requestJws, now).result == Served
    requires IsValidTimestamp(request.payload.unixTimestamp, againNow)
    ensures var reply := Serve(serverDid, trust, usage, request, requestJws, now);
            Serve(serverDid, reply.trust, reply.usage, request, againJws, againNow)
              == ServeReply(reply.trust, reply.usage, Refused(ReplayDetected))
  {
    var reply := Serve(serverDid, trust, usage, request, requestJws, now);
    var after := reply.usage[request.signer];
    assert after.requestIdHistory[|after.requestIdHistory| - 1] == request.payload.resourceRequest.payload.requestId;
  }

  /** Serving or banning keeps the trust store's parent and child links consistent and its roots. */
  lemma ServeKeepsLinks(serverDid: Did, trust: Kv, usage: UsageStore, request: Signed<AuthorizeRequest>,
                       requestJws: string, now: int)
    requires LinksConsistent(trust)
    ensures LinksConsistent(Serve(serverDid, trust, usage, request, requestJws, now).trust)
    ensures Roots(Serve(serverDid, trust, usage, request, requestJws, now).trust) == Roots(trust)
  {
    var reply := Serve(serverDid, trust, usage, request, requestJws, now);
    if reply.result == Refused(RateLimitBanned) {
      DistrustKeepsLinks(trust, request.signer, Join(reply.usage[request.signer].requestIdHistory, "\n"));
    }
  }

  /** Every served access keeps the member's per-second byte bucket within the budget. */
  lemma ServedWithinBudget(serverDid: Did, trust: Kv, usage: UsageStore, request: Signed<AuthorizeRequest>,
                           requestJws: string, now: int)
    requires Serve(serverDid, trust, usage, request, requestJws, now).result == Served
    ensures Serve(serverDid, trust, usage, request, requestJws, now).usage[request.signer].totalBytes.lastSecond
              <= MaxBytesPerSecond
  {
  }

  /** An authorization by `member` of a server-issued resource request of `size` bytes. */
  function ExampleRequest(serverDid: Did, member: Did, requestId: string, size: nat, timestamp: int)
    : Signed<AuthorizeRequest>
  {
    var resource := ResourceRequest("/resource", timestamp, [], size, requestId);
    Signed(AuthorizeRequest(Signed(resource, serverDid), timestamp, "authorize"), member)
  }

  /** One step of the scenario below: a fresh request of `size` bytes by a trusted member, within a second of the last update. */
  lemma StepWithinSecond(server: Did, trust: Kv, usage: UsageStore, member: Did, id: string, size: nat, t: int, now: int)
    requires member in trust.entries && trust.entries[member].node.isTrusted
    requires member in usage && id !in usage[member].requestIdHistory
    requires t <= now < t + MsSecond && usage[member].lastUpdateUnixTimestamp == t
    requires IsValidTimestamp(t, now)
    ensures var reply := Serve(server, trust, usage, ExampleRequest(server, member, id, size, t), "jws", now);
            var after := reply.usage[member];
            && after.requestIdHistory == usage[member].requestIdHistory + [id]
            && after.lastUpdateUnixTimestamp == now
            && after.totalBytes.lastSecond == usage[member].totalBytes.lastSecond + size
            && (after.totalBytes.lastSecond <= MaxBytesPerSecond ==> reply.result == Served && reply.trust == trust)
            && (after.totalBytes.lastSecond > MaxBytesPerSecond ==>
                  && reply.result == Refused(RateLimitBanned)
                  && reply.trust == Distrust(trust, member, Join(after.requestIdHistory, "\n")))
  {
    var q := ExampleRequest(server, member, id, size, t);
    assert PassesGate(server, trust, usage, q, now);
    ServeRecordsAccess(server, trust, usage, q, "jws", now);
    ServeEnforcesBudget(server, trust, usage, q, "jws", now);
  }

  /** The first request of a trusted member: its account starts at this request. */
  lemma FirstAccess(server: Did, trust: Kv, member: Did, id: string, size: nat, t: int)
    requires member in trust.entries && trust.entries[member].node.isTrusted
    requires size <= MaxBytesPerSecond
    ensures var reply := Serve(server, trust, map[], ExampleRequest(server, member, id, size, t), "jws", t);
            && reply.result == Served && reply.trust == trust
            && member in reply.usage
            && reply.usage[member].requestIdHistory == [id]
            && reply.usage[member].lastUpdateUnixTimestamp == t
            && reply.usage[member].totalBytes.lastSecond == size
  {
    var q := ExampleRequest(server, member, id, size, t);
    assert PassesGate(server, trust, map[], q, t);
    ServeRecordsAccess(server, trust, map[], q, "jws", t);
    ServeEnforcesBudget(server, trust, map[], q, "jws", t);
  }

  /**
   * Joining two non-empty lists of parts is joining each and putting one
   * separator between them: every two neighbouring parts are separated by
   * exactly one `sep`, and nothing else is added.
   */
  lemma {:induction false} JoinConcat(a: seq<string>, b: seq<string>, sep: string)
    requires |a| > 0 && |b| > 0
    ensures Join(a + b, sep) == Join(a, sep) + sep + Join(b, sep)
    decreases |b|
  {
    var last := b[|b| - 1];
    var init := b[..|b| - 1];
    if |b| == 1 {
      assert b == [last];
      JoinSnoc(a + b, a, last, sep);
    } else {
      assert b == init + [last];
      assert a + b == (a + init) + [last];
      JoinSnoc(a + b, a + init, last, sep);
      JoinSnoc(b, init, last, sep);
      JoinConcat(a, init, sep);
    }
  }

  /** One more part adds one separator and the part. */
  lemma JoinSnoc(parts: seq<string>, init: seq<string>, last: string, sep: string)
    requires |init| > 0 && parts == init + [last]
    ensures Join(parts, sep) == Join(init, sep) + sep + last
  {
    assert parts[..|parts| - 1] == init;
  }

  /** The newline-joined proof of three request ids. */
  lemma JoinThree(id1: string, id2: string, id3: string)
    ensures Join([id1, id2, id3], "\n") == id1 + "\n" + id2 + "\n" + id3
  {
    JoinSnoc([id1, id2], [id1], id2, "\n");
    JoinSnoc([id1, id2, id3], [id1, id2], id3, "\n");
  }

  /** The step that bans: a third request of 1024 bytes when the second's bucket already holds 2048. */
  lemma ThirdRequestOverBudget(server: Did, trust: Kv, usage: UsageStore, member: Did,
                               id1: string, id2: string, id3: string, t: int, later: int)
    requires member in trust.entries && trust.entries[member].node.isTrusted
    requires member in usage && usage[member].requestIdHistory == [id1, id2] && id3 != id1 && id3 != id2
    requires usage[member].lastUpdateUnixTimestamp == t && usage[member].totalBytes.lastSecond == 2048
    requires t <= later < t + MsSecond
    ensures var r3 := Serve(server, trust, usage, ExampleRequest(server, member, id3, 1024, t), "jws", later);
            && r3.result == Refused(RateLimitBanned)
            && r3.trust == Distrust(trust, member, id1 + "\n" + id2 + "\n" + id3)
  {
    var q := ExampleRequest(server, member, id3, 1024, t);
    assert PassesGate(server, trust, usage, q, later);
    ServeEnforcesBudget(server, trust, usage, q, "jws", later);
    JoinAppended([id1, id2], id1, id2, id3);
  }

  /** The ban proof after a third id is appended to two. */
  lemma JoinAppended(history: seq<string>, id1: string, id2: string, id3: string)
    requires history == [id1, id2]
    ensures Join(history + [id3], "\n") == id1 + "\n" + id2 + "\n" + id3
  {
    assert history + [id3] == [id1, id2, id3];
    JoinThree(id1, id2, id3);
  }

  /**
   * Three 1024-byte requests from a member within one second of its first
   * access: the first two fill the 2048-byte budget exactly and are served,
   * the third exceeds it, bans the member, and records the three request ids
   * as proof.
   */
  lemma ThirdRequestInOneSecondBans(server: Did, trust: Kv, member: Did, id1: string, id2: string, id3: string,
                                    t: int, later: int)
    requires member in trust.entries && trust.entries[member].node.isTrusted
    requires id1 != id2 && id1 != id3 && id2 != id3
    requires t <= later < t + MsSecond
    ensures var r1 := Serve(server, trust, map[], ExampleRequest(server, member, id1, 1024, t), "jws", t);
            var r2 := Serve(server, r1.trust, r1.usage, ExampleRequest(server, member, id2, 1024, t), "jws", t);
            var r3 := Serve(server, r2.trust, r2.usage, ExampleRequest(server, member, id3, 1024, t), "jws", later);
            && r1.result == Served
            && r2.result == Served
            && r3.result == Refused(RateLimitBanned)
            && UserInGoodStanding(r3.trust, member).None?
            && r3.trust.entries[member].node.banProof == Some(id1 + "\n" + id2 + "\n" + id3)
  {
    FirstAccess(server, trust, member, id1, 1024, t);
    var r1 := Serve(server, trust, map[], ExampleRequest(server, member, id1, 1024, t), "jws", t);
    StepWithinSecond(server, r1.trust, r1.usage, member, id2, 1024, t, t);
    var r2 := Serve(server, r1.trust, r1.usage, ExampleRequest(server, member, id2, 1024, t), "jws", t);
    ThirdRequestOverBudget(server, r2.trust, r2.usage, member, id1, id2, id3, t, later);
    DistrustedUserNotInGoodStanding(trust, member, id1 + "\n" + id2 + "\n" + id3);
    DistrustRecordsProof(trust, member, id1 + "\n" + id2 + "\n" + id3);
  }

  /**
   * The per-second bucket restarts only when a whole second has passed since
   * the member's last access, not on a sliding one-second window: three
   * 1024-byte requests 900 ms apart ban the member, although no interval of
   * one second holds more than two of them.
   */
  lemma SpacedRequestsBan(server: Did, trust: Kv, member: Did, id1: string, id2: string, id3: string, t: int)
    requires member in trust.entries && trust.entries[member].node.isTrusted
    requires id1 != id2 && id1 != id3 && id2 != id3
    ensures var r1 := Serve(server, trust, map[], ExampleRequest(server, member, id1, 1024, t), "jws", t);
            var r2 := Serve(server, r1.trust, r1.usage, ExampleRequest(server, member, id2, 1024, t), "jws", t + 900);
            var r3 := Serve(server, r2.trust, r2.usage, ExampleRequest(server, member, id3, 1024, t + 900), "jws",
                            t + 1800);
            && r1.result == Served
            && r2.result == Served
            && r3.result == Refused(RateLimitBanned)
            && UserInGoodStanding(r3.trust, member).None?
  {
    FirstAccess(server, trust, member, id1, 1024, t);
    var r1 := Serve(server, trust, map[], ExampleRequest(server, member, id1, 1024, t), "jws", t);
    StepWithinSecond(server, r1.trust, r1.usage, member, id2, 1024, t, t + 900);
    var r2 := Serve(server, r1.trust, r1.usage, ExampleRequest(server, member, id2, 1024, t), "jws", t + 900);
    StepWithinSecond(server, r2.trust, r2.usage, member, id3, 1024, t + 900, t + 1800);
    var r3 := Serve(server, r2.trust, r2.usage, ExampleRequest(server, member, id3, 1024, t + 900), "jws", t + 1800);
    DistrustedUserNotInGoodStanding(trust, member, Join(r3.usage[member].requestIdHistory, "\n"));
  }
}

=== FILE: revocation.dfy ===
/**
 * Recursive revocation: the target becomes untrusted (recording the proof,
 * if one is given), then each of its children is revoked in turn without a
 * proof. The source recurses without a bound and would not terminate on a
 * cycle; here the depth is bounded by `fuel`, and `Distrust` passes the
 * number of stored nodes, which reaches every node reachable at all.
 */
module Revocation {
  import opened Constants
  import opened Wrappers
  import opened TrustTree

  /**
   * `to` is reached from `from` by following children links through stored
   * nodes, visiting at most `fuel` nodes on the way (both ends included).
   */
  ghost predicate Reach(shape: map<Did, seq<Did>>, from: Did, to: Did, fuel: nat)
    decreases fuel
  {
    && fuel > 0
    && from in shape
    && (from == to || exists c :: c in shape[from] && Reach(shape, c, to, fuel - 1))
  }

  /** Some node of `roots` reaches `to` within `fuel`. */
  ghost predicate ReachAny(shape: map<Did, seq<Did>>, roots: seq<Did>, to: Did, fuel: nat)
  {
    exists c :: c in roots && Reach(shape, c, to, fuel)
  }

  /** Unfolds one level of `Reach`: the start itself, or a node reached from one of its children. */
  lemma ReachStep(shape: map<Did, seq<Did>>, from: Did, to: Did, fuel: nat)
    requires fuel > 0 && from in shape
    ensures Reach(shape, from, to, fuel) <==> from == to || ReachAny(shape, shape[from], to, fuel - 1)
  {
  }

  /** The node after one revocation step: untrusted, and carrying the proof if it is non-empty. */
  function Revoke(node: TrustNode, proof: string): TrustNode
  {
    node.(isTrusted := false, banProof := if proof != "" then Some(proof) else node.banProof)
  }

  /** The stored nodes `from` reaches within `fuel`. */
  ghost function ReachedFrom(shape: map<Did, seq<Did>>, from: Did, fuel: nat): set<Did>
  {
    set k | k in shape && Reach(shape, from, k, fuel)
  }

  /** The stored nodes some node of `roots` reaches within `fuel`. */
  ghost function ReachedFromAny(shape: map<Did, seq<Did>>, roots: seq<Did>, fuel: nat): set<Did>
  {
    set k | k in shape && ReachAny(shape, roots, k, fuel)
  }

  /**
   * `r` is `kv` with exactly the stored nodes of `reached` revoked: keys,
   * children, parents and admission times stay; a node is trusted in `r` iff
   * it was trusted and is not reached; only `target` takes the proof, and
   * only a non-empty one; entries not reached are untouched.
   */
  ghost predicate RevokedExactly(kv: Kv, r: Kv, reached: set<Did>, target: Option<Did>, proof: string)
  {
    && r.entries.Keys == kv.entries.Keys
    && Shape(r) == Shape(kv)
    && (forall k :: k in kv.entries ==>
          && r.entries[k].node.parent == kv.entries[k].node.parent
          && r.entries[k].node.addedAtUnixTimestamp == kv.entries[k].node.addedAtUnixTimestamp
          && (r.entries[k].node.isTrusted <==> kv.entries[k].node.isTrusted && k !in reached)
          && r.entries[k].node.banProof ==
               (if target == Some(k) && proof != "" then Some(proof) else kv.entries[k].node.banProof))
    && (forall k :: k in kv.entries && k !in reached ==> r.entries[k] == kv.entries[k])
    && r.nextVersionstamp >= kv.nextVersionstamp
  }

  /** Revoking `a` (with a proof for `target`) and then `b` (without) revokes `a + b`. */
  lemma RevokedCompose(kv: Kv, m: Kv, r: Kv, a: set<Did>, b: set<Did>, target: Option<Did>, proof: string)
    requires RevokedExactly(kv, m, a, target, proof)
    requires RevokedExactly(m, r, b, None, "")
    ensures RevokedExactly(kv, r, a + b, target, proof)
  {
  }

  /** The target alone is reached within one more level than its children reach. */
  lemma ReachedFromStep(shape: map<Did, seq<Did>>, userId: Did, fuel: nat)
    requires fuel > 0 && userId in shape
    ensures ReachedFrom(shape, userId, fuel) == {userId} + ReachedFromAny(shape, shape[userId], fuel - 1)
  {
    forall k
      ensures k in ReachedFrom(shape, userId, fuel) <==> k in {userId} + ReachedFromAny(shape, shape[userId], fuel - 1)
    {
      ReachStep(shape, userId, k, fuel);
    }
  }

  /** What a list of children reaches is what its head reaches plus what its tail reaches. */
  lemma ReachedFromAnyCons(shape: map<Did, seq<Did>>, children: seq<Did>, fuel: nat)
    requires |children| > 0
    ensures ReachedFromAny(shape, children, fuel)
              == ReachedFrom(shape, children[0], fuel) + ReachedFromAny(shape, children[1..], fuel)
  {
    forall k
      ensures ReachAny(shape, children, k, fuel) <==>
                Reach(shape, children[0], k, fuel) || ReachAny(shape, children[1..], k, fuel)
    {
      if ReachAny(shape, children, k, fuel) {
        var c :| c in children && Reach(shape, c, k, fuel);
        if c != children[0] {
          assert c in children[1..];
        }
      }
    }
  }

  /**
   * Revokes `userId` and, depth first, every node below it, within `fuel`
   * levels: exactly the nodes the target reaches become untrusted, and the
   * target takes a non-empty proof.
   */
  function DistrustUser(kv: Kv, userId: Did, proof: string, fuel: nat): (r: Kv)
    ensures RevokedExactly(kv, r, ReachedFrom(Shape(kv), userId, fuel), if fuel > 0 then Some(userId) else None, proof)
    decreases fuel, 0
  {
    if fuel == 0 || userId !in kv.entries then
      assert ReachedFrom(Shape(kv), userId, fuel) == {};
      kv
    else
      var node := kv.entries[userId].node;
      var marked := Set(kv, userId, Revoke(node, proof));
      assert Shape(marked) == Shape(kv);
      assert RevokedExactly(kv, marked, {userId}, Some(userId), proof);
      var r := DistrustChildren(marked, node.children, fuel - 1);
      ReachedFromStep(Shape(kv), userId, fuel);
      RevokedCompose(kv, marked, r, {userId}, ReachedFromAny(Shape(kv), node.children, fuel - 1), Some(userId), proof);
      r
  }

  /** Revokes each node of `children` in order, without a proof, within `fuel` levels. */
  function DistrustChildren(kv: Kv, children: seq<Did>, fuel: nat): (r: Kv)
    ensures RevokedExactly(kv, r, ReachedFromAny(Shape(kv), children, fuel), None, "")
    decreases fuel, 1, |children|
  {
    if |children| == 0 then
      assert ReachedFromAny(Shape(kv), children, fuel) == {};
      kv
    else
      var first := DistrustUser(kv, children[0], "", fuel);
      var rest := DistrustChildren(first, children[1..], fuel);
      ReachedFromAnyCons(Shape(kv), children, fuel);
      RevokedCompose(kv, first, rest, ReachedFrom(Shape(kv), children[0], fuel),
                     ReachedFromAny(Shape(kv), children[1..], fuel), if fuel > 0 then Some(children[0]) else None, "");
      rest
  }

  /** The stored nodes `from` reaches at any depth. */
  ghost function ReachableFrom(shape: map<Did, seq<Did>>, from: Did): set<Did>
  {
    set k | k in shape && Reachable(shape, from, k)
  }

  /** `to` is reachable from `from` through children links at any depth. */
  ghost predicate Reachable(shape: map<Did, seq<Did>>, from: Did, to: Did)
  {
    exists fuel: nat :: Reach(shape, from, to, fuel)
  }

  /** A chain of stored nodes, each listed among the children of the one before it. */
  ghost predicate IsPath(shape: map<Did, seq<Did>>, p: seq<Did>)
  {
    && |p| > 0
    && (forall i :: 0 <= i < |p| ==> p[i] in shape)
    && (forall i :: 0 < i < |p| ==> p[i] in shape[p[i - 1]])
  }

  lemma {:induction false} ReachHasPath(shape: map<Did, seq<Did>>, from: Did, to: Did, fuel: nat)
    requires Reach(shape, from, to, fuel)
    ensures exists p :: IsPath(shape, p) && p[0] == from && p[|p| - 1] == to && |p| <= fuel
    decreases fuel
  {
    if from == to {
      assert IsPath(shape, [from]);
    } else {
      var c :| c in shape[from] && Reach(shape, c, to, fuel - 1);
      ReachHasPath(shape, c, to, fuel - 1);
      var q :| IsPath(shape, q) && q[0] == c && q[|q| - 1] == to && |q| <= fuel - 1;
      var p := [from] + q;
      assert IsPath(shape, p) by {
        forall i | 0 <= i < |p|
          ensures p[i] in shape
        {
          if i > 0 {
            assert p[i] == q[i - 1];
          }
        }
        forall i | 0 < i < |p|
          ensures p[i] in shape[p[i - 1]]
        {
          if i > 1 {
            assert p[i] == q[i - 1] && p[i - 1] == q[i - 2];
          }
        }
      }
      assert p[|p| - 1] == q[|q| - 1];
    }
  }

  lemma {:induction false} PathReaches(shape: map<Did, seq<Did>>, p: seq<Did>, fuel: nat)
    requires IsPath(shape, p) && |p| <= fuel
    ensures Reach(shape, p[0], p[|p| - 1], fuel)
    decreases |p|
  {
    if |p| > 1 {
      var q := p[1..];
      assert forall i :: 0 < i < |q| ==> q[i] == p[i + 1] && q[i - 1] == p[i];
      assert IsPath(shape, q);
      PathReaches(shape, q, fuel - 1);
      assert p[1] in shape[p[0]];
    }
  }

  /** More nodes than there are keys means some node repeats. */
  lemma {:induction false} Pigeonhole(p: seq<Did>, keys: set<Did>)
    requires forall i :: 0 <= i < |p| ==> p[i] in keys
    requires |p| > |keys|
    ensures exists i, j :: 0 <= i < j < |p| && p[i] == p[j]
    decreases |p|
  {
    if j :| 1 <= j < |p| && p[j] == p[0] {
      assert p[0] == p[j];
    } else {
      var q := p[1..];
      assert forall i :: 0 <= i < |q| ==> q[i] == p[i + 1] && q[i] != p[0];
      Pigeonhole(q, keys - {p[0]});
      var i, j :| 0 <= i < j < |q| && q[i] == q[j];
      assert p[i + 1] == p[j + 1];
    }
  }

  /** Cutting out the loop between two visits of one node leaves a shorter path with the same ends. */
  lemma {:induction false} ShortestPath(shape: map<Did, seq<Did>>, p: seq<Did>)
    requires IsPath(shape, p)
    ensures exists q :: IsPath(shape, q) && q[0] == p[0] && q[|q| - 1] == p[|p| - 1] && |q| <= |shape|
    decreases |p|
  {
    if |p| > |shape| {
      assert |shape.Keys| == |shape|;
      Pigeonhole(p, shape.Keys);
      var i, j :| 0 <= i < j < |p| && p[i] == p[j];
      var q := p[..i] + p[j..];
      assert |q| < |p|;
      assert forall k :: 0 <= k < i ==> q[k] == p[k];
      assert forall k :: i <= k < |q| ==> q[k] == p[k - i + j];
      assert IsPath(shape, q) by {
        forall k | 0 < k < |q|
          ensures q[k] in shape[q[k - 1]]
        {
          if k == i {
            assert q[k] == p[i] && q[k - 1] == p[i - 1];
          } else if k > i {
            assert q[k - 1] == p[k - 1 - i + j];
          }
        }
      }
      assert q[0] == p[0];
      assert q[|q| - 1] == p[|p| - 1];
      ShortestPath(shape, q);
    }
  }

  /** Whatever is reachable at all is reached within as many levels as the store has nodes. */
  lemma ReachableWithinStore(shape: map<Did, seq<Did>>, from: Did, to: Did)
    ensures Reachable(shape, from, to) <==> Reach(shape, from, to, |shape|)
  {
    if Reachable(shape, from, to) {
      var fuel: nat :| Reach(shape, from, to, fuel);
      ReachHasPath(shape, from, to, fuel);
      var p :| IsPath(shape, p) && p[0] == from && p[|p| - 1] == to && |p| <= fuel;
      ShortestPath(shape, p);
      var q :| IsPath(shape, q) && q[0] == from && q[|q| - 1] == to && |q| <= |shape|;
      PathReaches(shape, q, |shape|);
    }
  }

  /**
   * `distrust_user` as the source calls it. Every node reachable from the
   * target through children links ends untrusted; every other entry is left
   * exactly as it was; the target alone takes the proof, and only when the
   * proof is non-empty (an existing proof is otherwise kept); the shape of
   * the store does not change. An absent target leaves the store unchanged.
   */
  function Distrust(kv: Kv, userId: Did, proof: string): (r: Kv)
    ensures RevokedExactly(kv, r, ReachableFrom(Shape(kv), userId), Some(userId), proof)
    ensures userId !in kv.entries ==> r == kv
  {
    var shape := Shape(kv);
    assert |shape| == |kv.entries| by {
      assert shape.Keys == kv.entries.Keys;
    }
    assert forall k :: Reachable(shape, userId, k) <==> Reach(shape, userId, k, |kv.entries|) by {
      forall k
        ensures Reachable(shape, userId, k) <==> Reach(shape, userId, k, |kv.entries|)
      {
        ReachableWithinStore(shape, userId, k);
      }
    }
    assert ReachableFrom(shape, userId) == ReachedFrom(shape, userId, |kv.entries|);
    DistrustUser(kv, userId, proof, |kv.entries|)
  }

  /**
   * The node `Distrust` leaves under a stored key `k`: the stored node,
   * untrusted if `k` is reachable from the target, and carrying the proof if
   * `k` is the target and the proof is non-empty.
   */
  lemma DistrustedNode(kv: Kv, userId: Did, proof: string, k: Did)
    requires k in kv.entries
    ensures var n := kv.entries[k].node;
            Distrust(kv, userId, proof).entries[k].node
              == n.(isTrusted := n.isTrusted && !Reachable(Shape(kv), userId, k),
                    banProof := if k == userId && proof != "" then Some(proof) else n.banProof)
  {
    var r := Distrust(kv, userId, proof);
    assert r.entries[k].node.children == Shape(r)[k];
  }

  /** Revoking again with the same proof changes no node: revocation is idempotent. */
  lemma DistrustIdempotent(kv: Kv, userId: Did, proof: string)
    ensures Nodes(Distrust(Distrust(kv, userId, proof), userId, proof)) == Nodes(Distrust(kv, userId, proof))
  {
    var once := Distrust(kv, userId, proof);
    var twice := Distrust(once, userId, proof);
    var reached := ReachableFrom(Shape(kv), userId);
    assert ReachableFrom(Shape(once), userId) == reached;
    RevokedTwice(kv, once, twice, reached, Some(userId), proof);
  }

  /** Revoking the same nodes with the same proof a second time changes no node. */
  lemma RevokedTwice(kv: Kv, once: Kv, twice: Kv, reached: set<Did>, target: Option<Did>, proof: string)
    requires RevokedExactly(kv, once, reached, target, proof)
    requires RevokedExactly(once, twice, reached, target, proof)
    ensures Nodes(twice) == Nodes(once)
  {
    forall k | k in once.entries
      ensures twice.entries[k].node == once.entries[k].node
    {
      assert twice.entries[k].node.children == Shape(twice)[k] == Shape(once)[k] == once.entries[k].node.children;
    }
  }

  /** The target itself leaves good standing. */
  lemma DistrustedUserNotInGoodStanding(kv: Kv, userId: Did, proof: string)
    requires userId in kv.entries
    ensures UserInGoodStanding(Distrust(kv, userId, proof), userId).None?
  {
    assert Reach(Shape(kv), userId, userId, 1);
  }

  /** The target keeps a non-empty proof as the reason for its ban. */
  lemma DistrustRecordsProof(kv: Kv, userId: Did, proof: string)
    requires userId in kv.entries && proof != ""
    ensures Distrust(kv, userId, proof).entries[userId].node.banProof == Some(proof)
  {
  }

  /** A child of the target leaves good standing too. */
  lemma DistrustedChildNotInGoodStanding(kv: Kv, userId: Did, child: Did, proof: string)
    requires userId in kv.entries && child in kv.entries
    requires child in kv.entries[userId].node.children
    ensures UserInGoodStanding(Distrust(kv, userId, proof), child).None?
  {
    var shape := Shape(kv);
    assert child in shape && shape[userId] == kv.entries[userId].node.children;
    assert Reach(shape, child, child, 1);
    assert Reach(shape, userId, child, 2);
  }

  /** Revocation keeps parent and child links consistent and keeps the set of roots. */
  lemma DistrustKeepsLinks(kv: Kv, userId: Did, proof: string)
    requires LinksConsistent(kv)
    ensures LinksConsistent(Distrust(kv, userId, proof))
    ensures Roots(Distrust(kv, userId, proof)) == Roots(kv)
  {
    var r := Distrust(kv, userId, proof);
    assert Parents(r) == Parents(kv);
  }
}

=== FILE: timestamps.dfy ===
/** The freshness window every signed request must fall into. */
module Timestamps {
  import opened Constants

  /** A request timestamp may differ from the receiver's clock by at most five minutes. */
  const MaxTimestampDiffMs: nat := 5 * MsMinute

  function Abs(x: int): nat {
    if x < 0 then -x else x
  }

  /**
   * True iff `timestamp` lies within `MaxTimestampDiffMs` of `now`, in either
   * direction, bounds included.
   */
  function IsValidTimestamp(timestamp: int, now: int): (valid: bool)
    ensures valid <==> now - MaxTimestampDiffMs <= timestamp <= now + MaxTimestampDiffMs
  {
    Abs(now - timestamp) <= MaxTimestampDiffMs
  }

  /** The window is the closed interval [now - 5 min, now + 5 min] of 300000 ms each way. */
  lemma ValidTimestampInterval(timestamp: int, now: int)
    ensures IsValidTimestamp(timestamp, now) <==> now - 300000 <= timestamp <= now + 300000
  {
  }

  /** Being k ms early and being k ms late are judged alike. */
  lemma ValidTimestampSymmetric(now: int, k: int)
    ensures IsValidTimestamp(now + k, now) <==> IsValidTimestamp(now - k, now)
  {
  }

  /** The receiver's own clock reading is fresh; exactly five minutes off is still fresh. */
  lemma ValidTimestampBoundary(now: int)
    ensures IsValidTimestamp(now, now)
    ensures IsValidTimestamp(now - MaxTimestampDiffMs, now)
    ensures IsValidTimestamp(now + MaxTimestampDiffMs, now)
    ensures !IsValidTimestamp(now - MaxTimestampDiffMs - 1, now)
    ensures !IsValidTimestamp(now + MaxTimestampDiffMs + 1, now)
  {
  }

  /** Ten minutes in the past or in the future is stale. */
  lemma TenMinutesIsStale(now: int)
    ensures !IsValidTimestamp(now - 10 * MsMinute, now)
    ensures !IsValidTimestamp(now + 10 * MsMinute, now)
  {
  }

  /** Two readings that are both fresh for the same request lie at most ten minutes apart. */
  lemma FreshForBoth(timestamp: int, now1: int, now2: int)
    requires IsValidTimestamp(timestamp, now1) && IsValidTimestamp(timestamp, now2)
    ensures -2 * MaxTimestampDiffMs <= now2 - now1 <= 2 * MaxTimestampDiffMs
  {
  }
}

=== FILE: trust_tree.dfy ===
/**
 * The trust tree: a key-value store mapping each admitted DID to its node.
 * Like the store it models, every write stamps the entry with a fresh
 * versionstamp, which conditional commits compare against.
 */
module TrustTree {
  import opened Constants
  import opened Wrappers

  /** The root is the one node without a parent; it is written by an operator, not admitted. */
  datatype TrustNode = TrustNode(
    children: seq<Did>,
    parent: Option<Did>,
    addedAtUnixTimestamp: int,
    isTrusted: bool,
    banProof: Option<string>)

  datatype Entry = Entry(node: TrustNode, versionstamp: nat)

  /** The store: its entries and the versionstamp the next write will carry. */
  datatype Kv = Kv(entries: map<Did, Entry>, nextVersionstamp: nat)

  function EmptyKv(): Kv
  {
    Kv(map[], 1)
  }

  /**
   * A plain write of `node` under `did`: the entry gets a versionstamp newer
   * than any the store has issued; every other entry stays as it was.
   */
  function Set(kv: Kv, did: Did, node: TrustNode): (r: Kv)
    ensures r.entries.Keys == kv.entries.Keys + {did}
    ensures r.entries[did] == Entry(node, kv.nextVersionstamp)
    ensures forall k :: k in kv.entries && k != did ==> r.entries[k] == kv.entries[k]
    ensures r.nextVersionstamp > kv.nextVersionstamp
  {
    Kv(kv.entries[did := Entry(node, kv.nextVersionstamp)], kv.nextVersionstamp + 1)
  }

  /** Every stored versionstamp was issued before the next one. */
  ghost predicate VersionstampsIssued(kv: Kv)
  {
    forall k :: k in kv.entries ==> kv.entries[k].versionstamp < kv.nextVersionstamp
  }

  /** A write gives the key a versionstamp different from the one it had, and keeps all stamps issued. */
  lemma SetChangesVersionstamp(kv: Kv, did: Did, node: TrustNode)
    requires VersionstampsIssued(kv)
    ensures VersionstampsIssued(Set(kv, did, node))
    ensures did in kv.entries ==> Set(kv, did, node).entries[did].versionstamp != kv.entries[did].versionstamp
  {
  }

  /** The stored nodes without their versionstamps. */
  function Nodes(kv: Kv): map<Did, TrustNode>
  {
    map k | k in kv.entries :: kv.entries[k].node
  }

  /** The children lists of all stored nodes: the part of the store the tree's shape is made of. */
  function Shape(kv: Kv): map<Did, seq<Did>>
  {
    map k | k in kv.entries :: kv.entries[k].node.children
  }

  /**
   * The trust gate: the stored entry, versionstamp included, when `did` is
   * present and trusted; None when it is absent or untrusted. It reads only.
   */
  function UserInGoodStanding(kv: Kv, did: Did): (r: Option<Entry>)
    ensures r.None? <==> did !in kv.entries || !kv.entries[did].node.isTrusted
    ensures r.Some? ==> did in kv.entries && r.value == kv.entries[did]
  {
    if did !in kv.entries then None
    else if !kv.entries[did].node.isTrusted then None
    else Some(kv.entries[did])
  }

  /** The node the bootstrap writes for the root: no children, trusted, and no parent at all. */
  function RootNode(unixTimestamp: int): TrustNode
  {
    TrustNode([], None, unixTimestamp, true, None)
  }

  /**
   * Writes the root node unconditionally, replacing whatever was stored
   * under `rootDid` (an earlier ban proof included) under a fresh
   * versionstamp; no other key changes.
   */
  function MakeRootUser(kv: Kv, rootDid: Did, unixTimestamp: int): (r: Kv)
    ensures r.entries.Keys == kv.entries.Keys + {rootDid}
    ensures var root := r.entries[rootDid].node;
            && root.children == [] && root.parent.None? && root.isTrusted
            && root.addedAtUnixTimestamp == unixTimestamp
    ensures r.entries[rootDid] == Entry(TrustNode([], None, unixTimestamp, true, None), kv.nextVersionstamp)
    ensures UserInGoodStanding(r, rootDid).Some?
    ensures forall k :: k in kv.entries && k != rootDid ==> r.entries[k] == kv.entries[k]
  {
    Set(kv, rootDid, RootNode(unixTimestamp))
  }

  /** The parent link of every stored node. */
  function Parents(kv: Kv): map<Did, Option<Did>>
  {
    map k | k in kv.entries :: kv.entries[k].node.parent
  }

  /**
   * Parent and child links agree: every listed child is stored and names the
   * listing node as its parent, and every named parent is stored and lists
   * the child. So a non-root node is listed by exactly one node, its parent.
   */
  ghost predicate LinksAgree(shape: map<Did, seq<Did>>, parents: map<Did, Option<Did>>)
  {
    && shape.Keys == parents.Keys
    && (forall p, c :: p in shape && c in shape[p] ==> c in parents && parents[c] == Some(p))
    && (forall c :: c in parents && parents[c].Some? ==>
          parents[c].value in shape && c in shape[parents[c].value])
  }

  /**
   * The store's parent and child links are consistent. This does not exclude
   * a cycle of nodes that list one another; it is the part of tree shape that
   * each operation is shown to keep.
   */
  ghost predicate LinksConsistent(kv: Kv)
  {
    LinksAgree(Shape(kv), Parents(kv))
  }

  /** The parentless nodes of the store. */
  function Roots(kv: Kv): set<Did>
  {
    var parents := Parents(kv);
    set k | k in parents && parents[k].None?
  }

  /** Bootstrapping an empty store yields consistent links and exactly one root. */
  lemma MakeRootUserOnEmpty(rootDid: Did, unixTimestamp: int)
    ensures var kv := MakeRootUser(EmptyKv(), rootDid, unixTimestamp);
            && LinksConsistent(kv) && VersionstampsIssued(kv) && Roots(kv) == {rootDid}
  {
  }
}

=== FILE: usage_account.dfy ===
/**
 * The server's rolling usage account of one signer: decaying byte and
 * request buckets per second, minute, hour, day, week, month (30 days) and
 * year (365 days), a never-reset all-time total, and the histories used for
 * replay detection and ban evidence.
 */
module UsageAccount {
  import opened Constants
  import opened Wrappers

  datatype UsageOverTime = UsageOverTime(
    lastSecond: int,
    lastMinute: int,
    lastHour: int,
    lastDay: int,
    lastWeek: int,
    lastMonth: int,
    lastYear: int,
    allTime: int)

  datatype UserUsageInfo = UserUsageInfo(
    lastUpdateUnixTimestamp: int,
    totalBytes: UsageOverTime,
    totalRequests: UsageOverTime,
    signedRequestHistory: seq<string>,
    requestIdHistory: seq<string>)

  /** The decaying buckets, finest first. */
  datatype Granularity = Second | Minute | Hour | Day | Week | Month | Year

  /** Position from finest (0) to coarsest (6). */
  function Rank(g: Granularity): nat
  {
    match g
    case Second => 0
    case Minute => 1
    case Hour => 2
    case Day => 3
    case Week => 4
    case Month => 5
    case Year => 6
  }

  /** Milliseconds that make one unit of the bucket. */
  function UnitMs(g: Granularity): nat
  {
    match g
    case Second => MsSecond
    case Minute => MsMinute
    case Hour => MsHour
    case Day => MsDay
    case Week => 7 * MsDay
    case Month => 30 * MsDay
    case Year => MsYear
  }

  function Bucket(u: UsageOverTime, g: Granularity): int
  {
    match g
    case Second => u.lastSecond
    case Minute => u.lastMinute
    case Hour => u.lastHour
    case Day => u.lastDay
    case Week => u.lastWeek
    case Month => u.lastMonth
    case Year => u.lastYear
  }

  /** Whole units elapsed since the last update, one count per bucket. */
  datatype Elapsed = Elapsed(seconds: int, minutes: int, hours: int, days: int, weeks: int, months: int, years: int)
  {
    function Count(g: Granularity): int
    {
      match g
      case Second => seconds
      case Minute => minutes
      case Hour => hours
      case Day => days
      case Week => weeks
      case Month => months
      case Year => years
    }
  }

  /** Floor division is unique: the quotient is the q with a = d*q + r and 0 <= r < d. */
  lemma DivUnique(a: int, d: int, q: int, r: int)
    requires d > 0 && 0 <= r < d && a == d * q + r
    ensures a / d == q
  {
    var q' := a / d;
    var r' := a % d;
    assert d * q' + r' == d * q + r;
    var k := q' - q;
    assert d * k == r - r';
    if k > 0 {
      MulAtLeast(d, k);
    } else if k < 0 {
      MulAtLeast(d, -k);
    }
  }

  lemma MulAtLeast(d: int, k: int)
    requires d > 0 && k >= 1
    ensures d * k >= d
  {
  }

  /** Dividing by b and then by c, each time rounding down, is dividing by b*c. */
  lemma DivDiv(a: int, b: int, c: int)
    requires b > 0 && c > 0
    ensures a / b / c == a / (b * c)
  {
    var q1, r1 := a / b, a % b;
    var q2, r2 := q1 / c, q1 % c;
    assert a == b * q1 + r1;
    assert q1 == c * q2 + r2;
    Distribute(b, c * q2, r2);
    assert b * (c * q2) == (b * c) * q2;
    assert a == (b * c) * q2 + (b * r2 + r1);
    MulLe(b, r2, c - 1);
    Distribute(b, c, -1);
    DivUnique(a, b * c, q2, b * r2 + r1);
  }

  lemma Distribute(b: int, x: int, y: int)
    ensures b * (x + y) == b * x + b * y
  {
  }

  lemma MulLe(b: int, x: int, y: int)
    requires b >= 0 && x <= y
    ensures b * x <= b * y
  {
    Distribute(b, x, y - x);
  }

  /** For a positive divisor, at least one whole unit has elapsed iff the dividend reaches the divisor. */
  lemma FloorAtLeastOne(a: int, d: int)
    requires d > 0
    ensures a / d >= 1 <==> a >= d
  {
  }

  /**
   * The floor chain of the source: whole seconds from the millisecond
   * difference, then minutes, hours, days from each other, and weeks, months
   * and years from days (JavaScript's Math.floor, which Dafny's `/` matches
   * for a positive divisor). Each count is the direct floor of the elapsed
   * milliseconds by the bucket's width, so it is at least one iff that width
   * has fully elapsed.
   */
  function ElapsedSince(last: int, now: int): (e: Elapsed)
    ensures forall g :: e.Count(g) == (now - last) / UnitMs(g)
    ensures forall g :: e.Count(g) >= 1 <==> now - last >= UnitMs(g)
  {
    var d := now - last;
    var seconds := d / 1000;
    var minutes := seconds / 60;
    var hours := minutes / 60;
    var days := hours / 24;
    var e := Elapsed(seconds, minutes, hours, days, days / 7, days / 30, days / 365);
    assert minutes == d / MsMinute by {
      DivDiv(d, 1000, 60);
    }
    assert hours == d / MsHour by {
      DivDiv(d, MsMinute, 60);
    }
    assert days == d / MsDay by {
      DivDiv(d, MsHour, 24);
    }
    assert forall g :: e.Count(g) == d / UnitMs(g) by {
      DivDiv(d, MsDay, 7);
      DivDiv(d, MsDay, 30);
      DivDiv(d, MsDay, 365);
    }
    assert forall g :: e.Count(g) >= 1 <==> d >= UnitMs(g) by {
      forall g
        ensures e.Count(g) >= 1 <==> d >= UnitMs(g)
      {
        FloorAtLeastOne(d, UnitMs(g));
      }
    }
    e
  }

  /** Zeroes every bucket whose elapsed count is at least one; all-time is left alone. */
  function Decay(u: UsageOverTime, e: Elapsed): UsageOverTime
  {
    UsageOverTime(
      if e.seconds >= 1 then 0 else u.lastSecond,
      if e.minutes >= 1 then 0 else u.lastMinute,
      if e.hours >= 1 then 0 else u.lastHour,
      if e.days >= 1 then 0 else u.lastDay,
      if e.weeks >= 1 then 0 else u.lastWeek,
      if e.months >= 1 then 0 else u.lastMonth,
      if e.years >= 1 then 0 else u.lastYear,
      u.allTime)
  }

  /** Adds `amount` to every bucket, all-time included. */
  function Accumulate(u: UsageOverTime, amount: int): UsageOverTime
  {
    UsageOverTime(
      u.lastSecond + amount, u.lastMinute + amount, u.lastHour + amount, u.lastDay + amount,
      u.lastWeek + amount, u.lastMonth + amount, u.lastYear + amount, u.allTime + amount)
  }

  /** One bucket after a decay and an accumulation: zero when its count has elapsed, then `amount` more. */
  lemma DecayedBucket(u: UsageOverTime, e: Elapsed, amount: int, g: Granularity)
    ensures Bucket(Accumulate(Decay(u, e), amount), g) == (if e.Count(g) >= 1 then 0 else Bucket(u, g)) + amount
  {
  }

  /** The account a signer gets on first access: all counters zero, no history. */
  function FreshAccount(now: int): UserUsageInfo
  {
    var zero := UsageOverTime(0, 0, 0, 0, 0, 0, 0, 0);
    UserUsageInfo(now, zero, zero, [], [])
  }

  /**
   * Records one access of `bytes` bytes at `now`. None (a replay) iff the
   * request id is already in the id history. Otherwise the update stamp
   * becomes `now`, both histories grow by exactly their new last element,
   * every bucket whose width has fully elapsed since the last update starts
   * again from zero, and then every bucket gains `bytes` (and one request);
   * the all-time totals are never reset.
   */
  function UpdateInfo(info: UserUsageInfo, now: int, bytes: nat, requestJws: string, requestId: string)
    : (r: Option<UserUsageInfo>)
    ensures r.None? <==> requestId in info.requestIdHistory
    ensures r.Some? ==>
              && r.value.lastUpdateUnixTimestamp == now
              && r.value.signedRequestHistory == info.signedRequestHistory + [requestJws]
              && r.value.requestIdHistory == info.requestIdHistory + [requestId]
    ensures r.Some? ==>
              forall g :: Bucket(r.value.totalBytes, g) ==
                (if now - info.lastUpdateUnixTimestamp >= UnitMs(g) then 0 else Bucket(info.totalBytes, g)) + bytes
    ensures r.Some? ==>
              forall g :: Bucket(r.value.totalRequests, g) ==
                (if now - info.lastUpdateUnixTimestamp >= UnitMs(g) then 0 else Bucket(info.totalRequests, g)) + 1
    ensures r.Some? ==>
              && r.value.totalBytes.allTime == info.totalBytes.allTime + bytes
              && r.value.totalRequests.allTime == info.totalRequests.allTime + 1
  {
    var elapsed := ElapsedSince(info.lastUpdateUnixTimestamp, now);
    if requestId in info.requestIdHistory then None
    else
      assert forall g, u: UsageOverTime, amount: int :: Bucket(Accumulate(Decay(u, elapsed), amount), g) ==
               (if now - info.lastUpdateUnixTimestamp >= UnitMs(g) then 0 else Bucket(u, g)) + amount by {
        forall g, u: UsageOverTime, amount: int
          ensures Bucket(Accumulate(Decay(u, elapsed), amount), g) ==
                    (if now - info.lastUpdateUnixTimestamp >= UnitMs(g) then 0 else Bucket(u, g)) + amount
        {
          DecayedBucket(u, elapsed, amount, g);
        }
      }
      Some(UserUsageInfo(
        now,
        Accumulate(Decay(info.totalBytes, elapsed), bytes),
        Accumulate(Decay(info.totalRequests, elapsed), 1),
        info.signedRequestHistory + [requestJws],
        info.requestIdHistory + [requestId]))
  }

  /**
   * A coarser bucket is reset only together with every finer one: a year
   * reset implies a month reset, which implies a week reset, and so on down
   * to the second.
   */
  lemma ResetsAreNested(last: int, now: int, fine: Granularity, coarse: Granularity)
    requires Rank(fine) <= Rank(coarse)
    ensures ElapsedSince(last, now).Count(coarse) >= 1 ==> ElapsedSince(last, now).Count(fine) >= 1
  {
  }

  /** Less than a second elapsed, or a clock that went backwards, resets nothing. */
  lemma ShortElapsedResetsNothing(last: int, now: int, g: Granularity)
    requires now - last < MsSecond
    ensures ElapsedSince(last, now).Count(g) < 1
  {
  }

  /** The counters never decrease from finer to coarser bucket and are never negative. */
  ghost predicate Ordered(u: UsageOverTime)
  {
    0 <= u.lastSecond <= u.lastMinute <= u.lastHour <= u.lastDay
      <= u.lastWeek <= u.lastMonth <= u.lastYear <= u.allTime
  }

  ghost predicate WellOrdered(info: UserUsageInfo)
  {
    Ordered(info.totalBytes) && Ordered(info.totalRequests)
  }

  lemma FreshAccountOrdered(now: int)
    ensures WellOrdered(FreshAccount(now))
  {
  }

  /** An ordered set of counters stays ordered after a nested reset and an equal non-negative addition. */
  lemma DecayAccumulateOrdered(u: UsageOverTime, last: int, now: int, amount: nat)
    requires Ordered(u)
    ensures Ordered(Accumulate(Decay(u, ElapsedSince(last, now)), amount))
  {
    var e := ElapsedSince(last, now);
    ResetsAreNested(last, now, Second, Minute);
    ResetsAreNested(last, now, Minute, Hour);
    ResetsAreNested(last, now, Hour, Day);
    ResetsAreNested(last, now, Day, Week);
    ResetsAreNested(last, now, Week, Month);
    ResetsAreNested(last, now, Month, Year);
    assert e.seconds == e.Count(Second) && e.minutes == e.Count(Minute) && e.hours == e.Count(Hour);
    assert e.days == e.Count(Day) && e.weeks == e.Count(Week) && e.months == e.Count(Month);
    assert e.years == e.Count(Year);
  }

  /**
   * Every accepted update keeps second <= minute <= hour <= day <= week <=
   * month <= year <= all-time, for bytes and for requests.
   */
  lemma UpdateInfoKeepsOrder(info: UserUsageInfo, now: int, bytes: nat, requestJws: string, requestId: string)
    requires WellOrdered(info)
    requires UpdateInfo(info, now, bytes, requestJws, requestId).Some?
    ensures WellOrdered(UpdateInfo(info, now, bytes, requestJws, requestId).value)
  {
    DecayAccumulateOrdered(info.totalBytes, info.lastUpdateUnixTimestamp, now, bytes);
    DecayAccumulateOrdered(info.totalRequests, info.lastUpdateUnixTimestamp, now, 1);
  }

  /** One resource access as the account sees it. */
  datatype Access = Access(now: int, bytes: nat, requestJws: string, requestId: string)

  /** Successive accesses applied in order; None as soon as one is a replay. */
  function UpdateAll(info: UserUsageInfo, accesses: seq<Access>): Option<UserUsageInfo>
    decreases |accesses|
  {
    if |accesses| == 0 then Some(info)
    else
      var a := accesses[0];
      match UpdateInfo(info, a.now, a.bytes, a.requestJws, a.requestId)
      case None => None
      case Some(next) => UpdateAll(next, accesses[1..])
  }

  function TotalBytes(accesses: seq<Access>): nat
  {
    if |accesses| == 0 then 0 else accesses[0].bytes + TotalBytes(accesses[1..])
  }

  /** The request ids of a run of accesses, in order. */
  function RequestIds(accesses: seq<Access>): seq<string>
  {
    if |accesses| == 0 then [] else [accesses[0].requestId] + RequestIds(accesses[1..])
  }

  /**
   * Over any run of accepted accesses the all-time counters are the running
   * totals of bytes and requests, the id history records every id in order,
   * and the bucket ordering is kept.
   */
  lemma {:induction false} UpdateAllRunningTotals(info: UserUsageInfo, accesses: seq<Access>)
    requires WellOrdered(info)
    requires UpdateAll(info, accesses).Some?
    ensures var final := UpdateAll(info, accesses).value;
            && final.totalBytes.allTime == info.totalBytes.allTime + TotalBytes(accesses)
            && final.totalRequests.allTime == info.totalRequests.allTime + |accesses|
            && final.requestIdHistory == info.requestIdHistory + RequestIds(accesses)
            && WellOrdered(final)
    decreases |accesses|
  {
    if |accesses| > 0 {
      var a := accesses[0];
      var next := UpdateInfo(info, a.now, a.bytes, a.requestJws, a.requestId).value;
      UpdateInfoKeepsOrder(info, a.now, a.bytes, a.requestJws, a.requestId);
      UpdateAllRunningTotals(next, accesses[1..]);
      assert info.requestIdHistory + RequestIds(accesses)
               == (info.requestIdHistory + [a.requestId]) + RequestIds(accesses[1..]);
    }
  }

  /** From a fresh account, the all-time counters equal the accepted bytes and the number of accepted requests, and the id history is exactly the accepted ids. */
  lemma FreshAccountRunningTotals(now: int, accesses: seq<Access>)
    requires UpdateAll(FreshAccount(now), accesses).Some?
    ensures var final := UpdateAll(FreshAccount(now), accesses).value;
            && final.totalBytes.allTime == TotalBytes(accesses)
            && final.totalRequests.allTime == |accesses|
            && final.requestIdHistory == RequestIds(accesses)
            && WellOrdered(final)
  {
    UpdateAllRunningTotals(FreshAccount(now), accesses);
    assert [] + RequestIds(accesses) == RequestIds(accesses);
  }
}

=== FILE: usage_events.dfy ===
/**
 * The client's per-signer usage ledger: an oldest-first sequence of accepted
 * events, pruned to one year, and the two newest-first scans the limit
 * evaluator runs over it.
 */
module UsageEvents {
  import opened Constants
  import opened Wrappers

  datatype Event = Event(ts: int, bytes: nat, requestId: string)

  /** What a window scan counts: accepted requests and their bytes. */
  datatype WindowStats = WindowStats(requests: nat, bytes: nat)

  /** All events but the newest. */
  function Init(events: seq<Event>): seq<Event>
    requires |events| > 0
  {
    events[..|events| - 1]
  }

  /** Total bytes of a run of events. */
  function SumBytes(events: seq<Event>): nat
  {
    if |events| == 0 then 0 else SumBytes(Init(events)) + events[|events| - 1].bytes
  }

  /**
   * Drops the events older than one year before `now`. Exactly the events
   * with `ts >= now - MaxWindowMs` are kept, each as often as it occurred;
   * `PruneOldAppend` shows that their order is kept too.
   */
  function PruneOld(events: seq<Event>, now: int): (kept: seq<Event>)
    ensures |kept| <= |events|
    ensures forall i :: 0 <= i < |kept| ==> kept[i].ts >= now - MaxWindowMs
    ensures forall e :: e in kept <==> e in events && e.ts >= now - MaxWindowMs
    ensures forall e :: multiset(kept)[e] ==
                          if e.ts >= now - MaxWindowMs then multiset(events)[e] else 0
  {
    if |events| == 0 then []
    else
      assert events == [events[0]] + events[1..];
      (if events[0].ts >= now - MaxWindowMs then [events[0]] else []) + PruneOld(events[1..], now)
  }

  /** Pruning works element by element, so it keeps the survivors in their original order. */
  lemma {:induction false} PruneOldAppend(a: seq<Event>, b: seq<Event>, now: int)
    ensures PruneOld(a + b, now) == PruneOld(a, now) + PruneOld(b, now)
  {
    if |a| == 0 {
      assert a + b == b;
    } else {
      PruneOldAppend(a[1..], b, now);
      PruneOldAppendStep(a, b, now);
    }
  }

  /** The inductive step of `PruneOldAppend`: the oldest event of `a` is kept or dropped in both. */
  lemma PruneOldAppendStep(a: seq<Event>, b: seq<Event>, now: int)
    requires |a| > 0
    requires PruneOld(a[1..] + b, now) == PruneOld(a[1..], now) + PruneOld(b, now)
    ensures PruneOld(a + b, now) == PruneOld(a, now) + PruneOld(b, now)
  {
    var head := if a[0].ts >= now - MaxWindowMs then [a[0]] else [];
    SplitOldest(a, b);
    PruneOldCons(a[0], a[1..] + b, now);
    SplitOldest(a, []);
    PruneOldCons(a[0], a[1..], now);
    Regroup(PruneOld(a + b, now), head, PruneOld(a[1..] + b, now), PruneOld(a[1..], now), PruneOld(b, now),
            PruneOld(a, now));
  }

  /** Splitting off the oldest event, kept apart from the pruning facts. */
  lemma SplitOldest<T>(a: seq<T>, b: seq<T>)
    requires |a| > 0
    ensures a + b == [a[0]] + (a[1..] + b)
    ensures a == [a[0]] + a[1..]
  {
  }

  /** Regrouping the pruned halves, kept apart from the pruning facts. */
  lemma Regroup<T>(whole: seq<T>, head: seq<T>, rest: seq<T>, left: seq<T>, right: seq<T>, front: seq<T>)
    requires whole == head + rest && rest == left + right && front == head + left
    ensures whole == front + right
  {
  }

  /** One unfolding of `PruneOld`: the oldest event is kept or dropped, then the rest is pruned. */
  lemma PruneOldCons(oldest: Event, rest: seq<Event>, now: int)
    ensures PruneOld([oldest] + rest, now)
              == (if oldest.ts >= now - MaxWindowMs then [oldest] else []) + PruneOld(rest, now)
  {
    assert ([oldest] + rest)[0] == oldest;
    assert ([oldest] + rest)[1..] == rest;
  }

  /** A ledger whose events all lie within the last year is left as it is. */
  lemma {:induction false} PruneOldKeepsRecent(events: seq<Event>, now: int)
    requires forall i :: 0 <= i < |events| ==> events[i].ts >= now - MaxWindowMs
    ensures PruneOld(events, now) == events
  {
    if |events| > 0 {
      PruneOldKeepsRecent(events[1..], now);
    }
  }

  /** Pruning twice at the same instant prunes nothing more. */
  lemma PruneOldIdempotent(events: seq<Event>, now: int)
    ensures PruneOld(PruneOld(events, now), now) == PruneOld(events, now)
  {
    PruneOldKeepsRecent(PruneOld(events, now), now);
  }

  /**
   * The newest-first scan, going from the last event backwards, reaches index
   * `j`: no event newer than `j` is older than the cutoff (the scan stops
   * right after the first one that is).
   */
  ghost predicate ScanReaches(events: seq<Event>, cutoff: int, j: nat)
  {
    forall i :: j < i < |events| ==> events[i].ts >= cutoff
  }

  /**
   * Start of the maximal newest-side run of events with `ts >= cutoff`: the
   * index just after the newest event older than the cutoff, or 0 if there
   * is none.
   */
  function RunStart(events: seq<Event>, cutoff: int): (k: nat)
    ensures k <= |events|
    ensures forall i :: k <= i < |events| ==> events[i].ts >= cutoff
    ensures k > 0 ==> events[k - 1].ts < cutoff
  {
    if |events| == 0 then 0
    else if events[|events| - 1].ts < cutoff then |events|
    else RunStart(Init(events), cutoff)
  }

  /**
   * Replay scan: newest first, the request id of each event is compared
   * before its age, and the scan stops after the first event older than
   * `now - windowMs`. It finds `requestId` iff some event carrying it is
   * reached by the scan.
   */
  function FoundDuplicate(events: seq<Event>, now: int, windowMs: int, requestId: string): (found: bool)
    ensures found <==>
              exists j :: 0 <= j < |events| && events[j].requestId == requestId
                          && ScanReaches(events, now - windowMs, j)
  {
    if |events| == 0 then false
    else
      var newest := events[|events| - 1];
      if newest.requestId == requestId then
        assert ScanReaches(events, now - windowMs, |events| - 1);
        true
      else if newest.ts < now - windowMs then
        false
      else
        var rest := FoundDuplicate(Init(events), now, windowMs, requestId);
        assert forall j: nat {:trigger ScanReaches(events, now - windowMs, j)} :: j < |events| - 1 ==>
                 (ScanReaches(events, now - windowMs, j) <==> ScanReaches(Init(events), now - windowMs, j));
        rest
  }

  /**
   * Window scan: newest first, returns None as soon as an event carrying
   * `currentRequestId` is met, stops after the first event older than
   * `now - windowMs`, and otherwise counts the events it passes. So it fails
   * exactly when the replay scan over the same window succeeds, and
   * otherwise counts the maximal newest-side run of events inside the
   * window, with their total bytes.
   */
  function CountInWindow(events: seq<Event>, now: int, windowMs: int, currentRequestId: string)
    : (stats: Option<WindowStats>)
    ensures stats.None? <==> FoundDuplicate(events, now, windowMs, currentRequestId)
    ensures stats.Some? ==>
              var k := RunStart(events, now - windowMs);
              && stats.value.requests == |events| - k
              && stats.value.bytes == SumBytes(events[k..])
  {
    if |events| == 0 then Some(WindowStats(0, 0))
    else
      var newest := events[|events| - 1];
      if newest.requestId == currentRequestId then None
      else if newest.ts < now - windowMs then
        assert events[|events|..] == [];
        Some(WindowStats(0, 0))
      else
        match CountInWindow(Init(events), now, windowMs, currentRequestId)
        case None => None
        case Some(older) =>
          var k := RunStart(events, now - windowMs);
          assert events[k..][..|events[k..]| - 1] == Init(events)[k..];
          Some(WindowStats(older.requests + 1, older.bytes + newest.bytes))
  }

  /** The replay scan inspects exactly the suffix that starts at the newest event older than the cutoff (or everything, if no event is). */
  lemma FoundDuplicateSuffix(events: seq<Event>, now: int, windowMs: int, requestId: string)
    ensures var k := RunStart(events, now - windowMs);
            var from := if k > 0 then k - 1 else 0;
            FoundDuplicate(events, now, windowMs, requestId) <==>
              exists j :: from <= j < |events| && events[j].requestId == requestId
  {
    var k := RunStart(events, now - windowMs);
    var from := if k > 0 then k - 1 else 0;
    forall j: nat {:trigger ScanReaches(events, now - windowMs, j)} | j < |events|
      ensures ScanReaches(events, now - windowMs, j) <==> from <= j
    {
      if j < from {
        assert j < k - 1 && events[k - 1].ts < now - windowMs;
      }
    }
  }

  /** The window scan never counts more requests than the ledger holds. */
  lemma CountInWindowBounded(events: seq<Event>, now: int, windowMs: int, currentRequestId: string)
    ensures var stats := CountInWindow(events, now, windowMs, currentRequestId);
            stats.Some? ==> stats.value.requests <= |events|
  {
  }

  /** A window scan over a ledger whose newest event predates the window counts nothing, unless that event carries the current id. */
  lemma CountInWindowStale(events: seq<Event>, now: int, windowMs: int, currentRequestId: string)
    requires |events| > 0 && events[|events| - 1].ts < now - windowMs
    requires events[|events| - 1].requestId != currentRequestId
    ensures CountInWindow(events, now, windowMs, currentRequestId) == Some(WindowStats(0, 0))
  {
  }
}

=== FILE: wrappers.dfy ===
/** Optional values, standing in for the `T | null` results of the source. */
module Wrappers {

  datatype Option<+T> = None | Some(value: T)
}
